=== FILE: README.md ===
# Sports statistics registry and AI-summary validator, in Dafny

This project models the core of `AISportsStats` in `sportsStats.ts`:

- **The registry.** It is an in-memory list of sports, each with a name, a data source and a list of key stats. It also holds a list of teams, each belonging to a sport and holding a record of stat values. Eight operations edit or read it: `addSport`, `deleteSport`, `addTeam`, `removeTeam`, `addKeyStat`, `removeKeyStat`, `updateStat` and `fetchTeamStats`. Two lookup helpers support them: `findSport` and `findTeam`.
- **The summary validator.** `validateSummary` makes three checks, in order, and the first that fails decides the error:
  1. the summary has 45 to 200 whitespace-separated words;
  2. it mentions some key stat;
  3. no unrecognised capitals-only word of 2 to 5 letters has its letters, anywhere in the summary and possibly inside a longer word, followed closely by a number.
- **The tail of `analyzeTeamPerformance`.** Once the language model has replied, the reply is trimmed. It is validated against the keys of the team's stored stats and, if accepted, returned.

The model is functional:

- The registry is an immutable value.
- Every editing operation returns either an error kind or the registry it leaves behind, and, where the source returns one, the sport or team as well. The read-only `FetchTeamStats` returns an error kind or the team's stats map.
- The validator's two regular expressions are modelled character by character:
  - `\b[A-Z]{2,5}\b` is a greedy scan with backtracking. It is proved to find exactly the whole `\w`-words of 2 to 5 capitals.
  - `TOKEN[^\d]{0,10}\d+` is a bounded digit search. It is proved to hold exactly when some occurrence of the token is followed by a digit with at most 10 UTF-16 code units in between, so a character outside the Basic Multilingual Plane uses two of the ten, as it does in the source.
- Each check of the validator is proved equal to a reference predicate:
  - `LengthOk` counts words;
  - `Mentions` is the substring check;
  - `IsHallucinated` is the per-token meaning.
- `ValidateSummary` is characterised in both directions in terms of these predicates.

Modules:

| module | file | contents |
|---|---|---|
| `Wrappers` | `wrappers.dfy` | `Option`, `Result` and `Outcome` |
| `Errors` | `errors.dfy` | one error kind per kind of failure; the two wordings of a missing sport share one, and `GenerationFailed` carries the language model's error |
| `Text` | `text.dfy` | JavaScript `\s`, `trim`, `split(/\s+/)`, `includes`, and the word count |
| `Registry` | `registry.dfy` | the data model, the lookups and the eight operations |
| `RegistryFacts` | `registry_facts.dfy` | the registry invariant, its preservation, and the test scenarios |
| `Validator` | `validator.dfy` | `validateSummary` and its regular expressions |
| `ValidatorFacts` | `validator_facts.dfy` | length boundaries, the blank-summary quirk, and worked examples |
| `Analysis` | `analysis.dfy` | the trim-and-validate tail of `analyzeTeamPerformance` |
| `AnalysisFacts` | `analysis_facts.dfy` | validation against stored stat keys |

### Behaviours of the code worth knowing

- **"WAR was 4.5 this season".** This sentence is an example often given of a hallucinated stat. The summary has five words, and the length check runs first, so the code rejects it for its length. `ValidatorFacts.WarExample` proves both facts:
  - the hallucination check would flag `WAR`;
  - the outcome is `InvalidLength`.
- **Where the number is looked for.** The number test `TOKEN[^\d]{0,10}\d+` runs over the whole summary (`sportsStats.ts:204-205`), not just after the word that produced the token. Any occurrence of the token's letters counts, even one inside a longer word. `ValidatorFacts.InnerOccurrenceCounts` proves that in "WAR ok. AWARD 7" the word WAR has no digit within reach, yet WAR is reported because of the 7 after "AWARD".
- **Which stats count as key stats.** Analysis does not validate against the sport's key stats. It passes `Object.keys(stats)`, the keys of the team's stored stats (`sportsStats.ts:147`). So:
  - a freshly added team can never be summarised;
  - a key stat removed from the sport still counts while the team holds a value for it.
- **Errors during analysis.** They are not wrapped in a new error. The code logs every error and rethrows it unchanged. The model represents the language model's own error as `GenerationFailed` carrying that error's message.
- **Order of checks in `updateStat`.** `updateStat` looks the team up before it checks the stat. A missing team is reported as not found even when the stat is also unknown.

## Model

| member | source | states |
|---|---|---|
| Registry.FindSport | sportsStats.ts:218-222 | None exactly when no sport has the name; otherwise the index of a sport with that name, and no earlier sport has it (the first match, as `find` returns) |
| Registry.FindTeam | sportsStats.ts:227-235 | None exactly when no team matches both team name and sport name; otherwise the first matching index |
| Registry.AnyTeamOf | sportsStats.ts:50 | true exactly when some team belongs to the named sport |
| Registry.KeyStatsOf | sportsStats.ts:111 | the key stats a team sees are those of a registered sport of its name, or none when no such sport exists |
| Registry.SportsWithout | sportsStats.ts:54 | keeps exactly the sports whose name differs; never grows; the identity when no sport has the name |
| Registry.Without | sportsStats.ts:102 | keeps exactly the entries different from the stat, each as often as before (the multiset with the stat's count set to zero), removing every occurrence; the identity when the stat is absent |
| Registry.WithoutConcat | sportsStats.ts:102 | the filter works piecewise over a concatenation, so the kept entries stay in their original order |
| Registry.AddSport | sportsStats.ts:32-40 | fails with a duplicate error exactly when the name is in use; otherwise appends one sport whose key stats are the given defaults, returns it, and leaves teams unchanged |
| Registry.DeleteSport | sportsStats.ts:45-57 | not-found exactly when no sport has the name; has-teams exactly when it exists and some team belongs to it; otherwise returns a sport of that name, removes precisely the sports of that name and leaves teams unchanged |
| Registry.AddTeam | sportsStats.ts:62-73 | fails exactly when the (team, sport) pair is taken; otherwise appends one team with empty stats and leaves sports unchanged |
| Registry.RemoveTeam | sportsStats.ts:78-83 | not-found exactly when no team matches; otherwise removes and returns the first match, every other team kept in order, sports unchanged |
| Registry.AddKeyStat | sportsStats.ts:88-95 | not-found exactly when the sport is absent; duplicate exactly when the stat is already a key stat; no other error, so the call succeeds whenever the sport exists and the stat is new; then the stat is appended to that sport's key stats only, teams unchanged |
| Registry.RemoveKeyStat | sportsStats.ts:100-104 | fails only on an unknown sport; otherwise that sport's key stats lose every occurrence of the stat and keep the rest, teams unchanged |
| Registry.UpdateStat | sportsStats.ts:109-116 | not-found exactly when the team is absent; unknown-stat exactly when the team exists and the stat is not a key stat of its sport; no other error, so the call succeeds whenever the team exists and the stat is a key stat; then only that team's stat changes, sports unchanged |
| Registry.FetchTeamStats | sportsStats.ts:121-124 | not-found exactly when the team is absent; otherwise the stats of the first matching team |
| Registry.FindSportUnaffected | sportsStats.ts:218-222 | replacing a sport by one of the same name does not change which sport a lookup finds |
| Registry.FindTeamUnaffected | sportsStats.ts:227-235 | replacing a team by one with the same names does not change which team a lookup finds |
| RegistryFacts.EmptyValid | sportsStats.ts:26-27 | the empty registry has distinct sport names, distinct team keys, only registered sports, and only key stats stored |
| RegistryFacts.AddSportKeepsValid | sportsStats.ts:33-37 | the duplicate check keeps sport names pairwise distinct |
| RegistryFacts.SportsWithoutDistinct | sportsStats.ts:54 | with distinct names, the name filter removes exactly the one sport at its index |
| RegistryFacts.RemoveSportAt | sportsStats.ts:54 | removing one sport from distinct-named sports keeps names distinct and removes only that name |
| RegistryFacts.DeleteSportExact | sportsStats.ts:45-57 | on a valid registry a delete removes exactly the returned sport, keeps the others in order, leaves no sport of that name, and keeps the invariant |
| RegistryFacts.AddTeamKeepsValid | sportsStats.ts:63-70 | the duplicate check keeps (team, sport) pairs unique, and a new team stores no stat that is not a key stat |
| RegistryFacts.RemoveTeamAt | sportsStats.ts:80 | removing one team from unique pairs keeps them unique and leaves no other team with its pair |
| RegistryFacts.RemoveTeamExact | sportsStats.ts:78-83 | on a valid registry the removed team is gone entirely, exactly one team fewer, invariant kept |
| RegistryFacts.KeyStatEditsKeepValid | sportsStats.ts:88-104 | adding or removing a key stat keeps the registry invariant |
| RegistryFacts.UpdateStatKeepsValid | sportsStats.ts:109-116 | an update keeps the invariant and keeps every stored stat a key stat of its sport |
| RegistryFacts.RemoveKeyStatLeavesStaleStats | sportsStats.ts:100-116 | removing a key stat can leave a value stored under it, so stored stats need not be key stats afterwards |
| RegistryFacts.RemoveKeyStatIdempotent | sportsStats.ts:100-104 | removing the same key stat a second time changes nothing |
| RegistryFacts.UpdateThenFetch | sportsStats.ts:109-124 | after an update, fetching that team returns its previous stats with the stat mapped to the new value |
| RegistryFacts.UpdateLeavesOtherTeams | sportsStats.ts:109-124 | an update leaves what fetching every other (team, sport) pair returns unchanged |
| RegistryFacts.UpdateUnknownStatRefused | sportsStats.ts:109-113 | on a valid registry a stat outside the sport's key stats is refused as unknown |
| RegistryFacts.ManualStatsScenario | sportsStats-tests.ts:36-47 | the manual scenario's three updates succeed, the fetch returns exactly the three values, and baseball cannot be deleted while the Phillies belong to it |
| RegistryFacts.MultiTeamSetup | sportsStats-tests.ts:106-112 | the two sports and three teams of the multi-team setup are added without error, giving exactly the expected registry, and a second Phillies is refused |
| RegistryFacts.MultiTeamStartFetches | sportsStats-tests.ts:106-112 | right after the setup each of the three teams fetches no stats, and the Phillies are not a basketball team |
| RegistryFacts.MultiTeamStep | sportsStats.ts:109-124 | in the multi-team setup an update of one of its teams with a key stat succeeds and changes only that team's fetched stats |
| RegistryFacts.PhilliesUpdates | sportsStats-tests.ts:115-116 | the two Phillies updates succeed and only the Phillies' stats change |
| RegistryFacts.OtherTeamUpdates | sportsStats-tests.ts:117-119 | the Red Sox and 76ers updates succeed; afterwards each of the three teams fetches exactly the stats the scenario gave it |
| RegistryFacts.BaseballStatRefusedForSixers | sportsStats.ts:109-113 | at every point of the multi-team scenario a baseball stat is refused for the basketball team as unknown |
| Text.Trim | sportsStats.ts:140 | the result has no whitespace at either end, is obtained from the input by cutting only whitespace from the ends, and is empty exactly when the input is all whitespace |
| Text.TrimIdempotent | sportsStats.ts:185 | trimming an already trimmed summary changes nothing |
| Text.IncludesFrom | sportsStats.ts:193 | the search succeeds exactly when the key occurs at or after the start position |
| Text.Split | sportsStats.ts:185 | `split(/\s+/)` yields at least one piece, and no piece contains whitespace |
| Text.SplitLength | sportsStats.ts:185 | a string that does not end in whitespace splits into one piece per word, plus one empty piece when it is empty or starts with whitespace |
| Text.WordCountIsWords | sportsStats.ts:185 | the validator's word count is the number of words, except that a summary with no words counts as one |
| Validator.UpperRun | sportsStats.ts:199 | the greedy run of `[A-Z]{2,5}`: all capitals, stopping only at the cap, the end, or a non-capital |
| Validator.BackOff | sportsStats.ts:199 | backtracking finds the longest length of at least 2 that ends at a word boundary (no longer one up to the greedy run does), and none exists when it fails |
| Validator.MatchTokenAt | sportsStats.ts:199 | a match at a position is a whole word of 2 to 5 capitals with no word character on either side, and no match means no such word starts there |
| Validator.TokenSpanUnique | sportsStats.ts:199 | at most one token starts at a position |
| Validator.NoTokenInside | sportsStats.ts:199 | no token starts inside another, so the global scan can resume after a match |
| Validator.TokensFrom | sportsStats.ts:199 | the tokens found from a position are exactly the whole capitals-only words of 2 to 5 letters starting there or later |
| Validator.TokensFromAt | sportsStats.ts:199 | a token at the current position is listed first and the scan resumes right after it, so tokens come in text order, repeats included |
| Validator.TokensFromSkip | sportsStats.ts:199 | a position where no token starts contributes nothing to the list |
| Validator.DigitSoon | sportsStats.ts:204 | true exactly when a digit follows with at most the given number of UTF-16 code units before it |
| Validator.NumberAfterFrom | sportsStats.ts:204-205 | the test succeeds exactly when an occurrence of the token at or after the position is followed by a digit with at most 10 UTF-16 code units in between |
| Validator.Flagged | sportsStats.ts:200-206 | exactly the tokens that are not key stats and have a number nearby are flagged; none when every token is a key stat or has no number nearby |
| Validator.FlaggedConcat | sportsStats.ts:200-206 | the two filters work piecewise over a concatenation, so the reported tokens keep their order and repetitions |
| Validator.LengthCheckMeaning | sportsStats.ts:185-190 | the length check passes exactly when the word count, with no words counting as one, lies in 45..200 |
| Validator.MentionCheckMeaning | sportsStats.ts:193-196 | the mention check passes exactly when some key stat occurs as a substring |
| Validator.HallucinationCheckMeaning | sportsStats.ts:199-210 | a token is reported exactly when it is a capitals-only word of the summary, not a key stat, and some occurrence of its letters, possibly inside a longer word, is followed by a digit within 10 UTF-16 code units |
| Validator.ValidateSummary | sportsStats.ts:184-213 | length failure exactly when the length is out of range; a missing reference exactly when the length is fine and no key stat occurs; a hallucination error exactly when both pass and some token is hallucinated, listing exactly those tokens; pass exactly when all three hold; no other error |
| ValidatorFacts.BlankSummaryIsOneWord | sportsStats.ts:185-190 | an empty or all-whitespace summary counts as one word and fails the length check |
| ValidatorFacts.ShortSummaryFails | sportsStats.ts:185-190 | a summary of fewer than 45 characters fails the length check whatever it contains |
| ValidatorFacts.NoDigitsNoHallucination | sportsStats.ts:202-210 | capitals with no digit anywhere are never reported |
| ValidatorFacts.LengthBoundaries | sportsStats.ts:185-190 | the length window is inclusive: a summary otherwise acceptable passes with 45 or 200 words and fails with 44 or 201 |
| ValidatorFacts.FillerPasses | sportsStats.ts:184-213 | a digit-free summary of 45 to 200 words that mentions a key stat passes |
| ValidatorFacts.WarExample | sportsStats.ts:185-210 | in "WAR was 4.5 this season" the hallucination check would flag WAR, but the length check fails first |
| ValidatorFacts.MvpTokens | sportsStats.ts:199 | the only tokens of "MVP candidate with strong OPS of .844" are MVP and OPS |
| ValidatorFacts.MvpNoNumber | sportsStats.ts:204-205 | no digit comes within 10 code units after MVP there |
| ValidatorFacts.InnerOccurrenceCounts | sportsStats.ts:199-210 | the word WAR of "WAR ok. AWARD 7" has no digit within 10 code units, yet WAR is reported, because the letters WAR inside AWARD have a 7 close behind them |
| ValidatorFacts.AstralCharsCountTwice | sportsStats.ts:204 | after ABC, five emoji and a space, a digit seven characters on is out of reach, because the emoji take ten code units |
| Text.UnitsBetweenBounds | sportsStats.ts:204 | every character takes one or two UTF-16 code units |
| ValidatorFacts.MvpExample | sportsStats.ts:199-210 | nothing in that sentence is reported: MVP has no number nearby and OPS is a key stat |
| Analysis.CheckResponse | sportsStats.ts:140-148 | accepts exactly when the trimmed reply passes all three checks against the stored stat keys, and then returns the trimmed reply; otherwise the first failing check's error, a hallucination error listing exactly the hallucinated tokens of the trimmed reply |
| Analysis.AnalyzeTeamPerformance | sportsStats.ts:129-154 | a missing team is not-found whatever the reply; a failed language-model call's error is passed on with its message; a reply is judged exactly as `CheckResponse` judges it against the first matching team's stats, so a rejected reply carries the validator's own error; accepted exactly when the trimmed reply passes against the first matching team's stat keys, returning the trimmed reply |
| Analysis.RetrimHarmless | sportsStats.ts:185 | re-trimming the trimmed summary keeps the word count, so the length check of the summary is that of the raw reply |
| Analysis.NoStatsNoSummary | sportsStats.ts:147 | with no stored stats no reply is accepted; one of acceptable length is refused for not referencing a stat |
| Analysis.FreshTeamNeverSummarised | sportsStats.ts:69 | a just-added team has no stats, so analysing it always fails, with a missing reference once the length is fine |
| Analysis.SportKeyStatsIgnored | sportsStats.ts:147 | the outcome does not depend on the sports' key stats at all |
| Analysis.RemoveKeyStatKeepsAnalysis | sportsStats.ts:100-104 | removing a key stat from a sport does not change any team's analysis outcome |
| AnalysisFacts.StoredStatAccepted | sportsStats.ts:140-148 | a team storing OPS gets an acceptable OPS-mentioning summary back unchanged, whatever its sport's key stats are |

## Left out

- The language-model call (`executeLLM`), `async`/`await` and the logging in the `catch` block. The reply is a parameter: the text returned or the error raised.
- `createSummaryPrompt`. It is a fixed text template around `JSON.stringify` of the stats. The reply does not depend on it in the model, and JavaScript number formatting is not modelled.
- All `console.log` and `console.table` output.
- Stat values are JavaScript numbers that are only stored and copied. They are modelled as `real`, with no arithmetic.
- Error message texts. Each `throw` is an error kind; `HallucinatedStat` carries the reported tokens.
- Object identity and aliasing of `Sport` objects:
  - `addSport` stores the caller's `defaultStats` array itself, so a caller that later changes that array changes the sport.
  - Teams hold the `Sport` object passed to `addTeam`.
  - The model stores the sport's name in the team and looks key stats up in the registry. This matches the source whenever teams are given the registered sport object, which is what the source's own callers do.
- Registry.AddTeam: requires the sport to be registered, which the source does not check. Without that, an unregistered `Sport` object's own key stats would govern `updateStat`, and the name-based lookup cannot see them.
- Registry.RemoveTeam: `filter(t => t !== team)` removes by object identity. The model removes the first matching entry. These are the same because each team object is stored once.
- Registry.FetchTeamStats: the copy `{ ...team.stats }` is a fresh object, which is not visible in a value model. The special key `__proto__` is also not modelled.
- Registry.UpdateStat: the special key `__proto__` is not modelled. In the source, `team.stats[stat] = value` with that key calls the inherited prototype setter, which ignores a number and leaves the stats unchanged. The model stores the key like any other, so `RegistryFacts.UpdateThenFetch` does not describe the source for that key.
- Strings are sequences of Unicode scalar values, not UTF-16 code units. Where the source counts code units, which is the 10-unit window of the number pattern, the model counts them too (`Text.UnitsBetween`). Every other pattern and method used here treats a surrogate pair as two characters that are neither whitespace, digits, capitals nor word characters, which gives the same result as one such character. A JavaScript string holding an unpaired surrogate cannot be represented.
- The `stats` argument of `validateSummary` is never read, so the model omits it.
- The optional `(\.\d+)?` at the end of the number pattern cannot change whether `test` succeeds, so it is not modelled.

=== FILE: analysis.dfy ===
/** The tail of `analyzeTeamPerformance(teamName, sport, llm)`: look the team up,
    copy its stats, obtain the language model's reply, trim it, validate it against
    the keys of the team's stored stats, and return the trimmed summary. Building
    the prompt, the network call and the console output are not modelled: the reply
    is a parameter, either the text the model returned or the error its call raised.
    Every error is rethrown unchanged by the surrounding `try`/`catch`; an error of the
    language-model call keeps its message. */
module Analysis {
  import opened Wrappers
  import opened Errors
  import opened Text
  import opened Registry
  import opened Validator

  /** What the language-model call produced: its text, or the message of the error
      it raised. */
  type Reply = Result<string, string>

  /** The summary passes all three checks of `validateSummary` against `keys`. */
  ghost predicate Accepted(summary: string, keys: set<string>) {
    && LengthOk(summary)
    && Mentions(summary, keys)
    && forall t :: !IsHallucinated(summary, keys, t)
  }

  /** `summary = response.trim()` followed by
      `validateSummary(summary, stats, Object.keys(stats))`: the trimmed reply is
      returned when it is accepted; otherwise the first failing check's error, a
      hallucination error listing exactly the hallucinated tokens. */
  function CheckResponse(stats: map<string, StatValue>, response: string): (r: Result<string, ErrKind>)
    ensures r.Ok? <==> Accepted(Trim(response), stats.Keys)
    ensures r.Ok? ==> r.value == Trim(response) && Trimmed(r.value)
    ensures r == Err(InvalidLength) <==> !LengthOk(Trim(response))
    ensures r == Err(MissingStatReference) <==>
              LengthOk(Trim(response)) && !Mentions(Trim(response), stats.Keys)
    ensures r.Err? && r.error.HallucinatedStat? <==>
              && LengthOk(Trim(response)) && Mentions(Trim(response), stats.Keys)
              && exists t :: IsHallucinated(Trim(response), stats.Keys, t)
    ensures r.Err? && r.error.HallucinatedStat? ==>
              forall t :: t in r.error.tokens <==> IsHallucinated(Trim(response), stats.Keys, t)
    ensures r.Err? ==> r.error.InvalidLength? || r.error.MissingStatReference? || r.error.HallucinatedStat?
  {
    var summary := Trim(response);
    var keys := stats.Keys;
    match ValidateSummary(summary, keys)
    case Pass =>
      assert Accepted(summary, keys);
      Ok(summary)
    case Fail(e) =>
      Err(e)
  }

  /** `analyzeTeamPerformance`: a missing team fails first, before the language
      model is consulted; then an error of the model's call is rethrown as it is;
      then the reply is trimmed and validated against the keys of the stats of the
      first team that matches. */
  function AnalyzeTeamPerformance(reg: Registry, teamName: string, sportName: string, reply: Reply)
    : (r: Result<string, ErrKind>)
    ensures !HasTeam(reg.teams, teamName, sportName) ==> r == Err(TeamNotFound)
    ensures HasTeam(reg.teams, teamName, sportName) && reply.Err? ==> r == Err(GenerationFailed(reply.error))
    ensures HasTeam(reg.teams, teamName, sportName) && reply.Ok? ==>
              r == CheckResponse(FetchTeamStats(reg, teamName, sportName).value, reply.value)
    ensures r.Ok? <==>
              && HasTeam(reg.teams, teamName, sportName) && reply.Ok?
              && Accepted(Trim(reply.value), FetchTeamStats(reg, teamName, sportName).value.Keys)
    ensures r.Ok? ==> r.value == Trim(reply.value)
  {
    match FetchTeamStats(reg, teamName, sportName)
    case Err(e) => Err(e)
    case Ok(stats) =>
      match reply
      case Err(message) => Err(GenerationFailed(message))
      case Ok(response) => CheckResponse(stats, response)
  }

  // ---------------------------------------------------------------------------
  // properties

  /** The validator trims the summary again before counting words; since the
      summary is already trimmed this changes nothing, and the length check of the
      trimmed reply is the length check of the raw reply. */
  lemma RetrimHarmless(response: string)
    ensures WordCount(Trim(response)) == WordCount(response)
    ensures LengthOk(Trim(response)) <==> LengthOk(response)
  {
    TrimIdempotent(response);
    LengthCheckMeaning(response);
    LengthCheckMeaning(Trim(response));
  }

  /** With no stored stats there is no key to mention, so no reply is ever accepted;
      one of acceptable length is refused for not referencing a stat. */
  lemma NoStatsNoSummary(response: string)
    ensures CheckResponse(map[], response).Err?
    ensures LengthOk(Trim(response)) ==> CheckResponse(map[], response) == Err(MissingStatReference)
  {
  }

  /** A team that was just added has no stats, so analysing it always fails, whatever
      the language model replies, even though its sport has key stats. */
  lemma FreshTeamNeverSummarised(reg: Registry, teamName: string, sportName: string, reply: Reply)
    requires HasSport(reg.sports, sportName)
    requires AddTeam(reg, teamName, sportName).Ok?
    ensures var reg' := AddTeam(reg, teamName, sportName).value.0;
            && AnalyzeTeamPerformance(reg', teamName, sportName, reply).Err?
            && (reply.Ok? && LengthOk(Trim(reply.value)) ==>
                  AnalyzeTeamPerformance(reg', teamName, sportName, reply) == Err(MissingStatReference))
  {
    var reg' := AddTeam(reg, teamName, sportName).value.0;
    var n := |reg.teams|;
    assert IsTeam(reg'.teams[n], teamName, sportName);
    assert FetchTeamStats(reg', teamName, sportName) == Ok(map[]) by {
      var stats := FetchTeamStats(reg', teamName, sportName);
      var i :| 0 <= i < |reg'.teams| && IsTeam(reg'.teams[i], teamName, sportName)
               && (forall j :: 0 <= j < i ==> !IsTeam(reg'.teams[j], teamName, sportName))
               && stats.value == reg'.teams[i].stats;
      assert i == n;
    }
  }

  /** The check uses the keys of the team's stored stats, not the sport's key stats:
      registries that differ only in their sports give the same outcome, so a key
      stat that has been removed from the sport still counts when the team holds a
      value for it, and one that has been added does not count until it holds one. */
  lemma SportKeyStatsIgnored(reg: Registry, sports: seq<Sport>, teamName: string, sportName: string, reply: Reply)
    ensures AnalyzeTeamPerformance(reg.(sports := sports), teamName, sportName, reply) ==
            AnalyzeTeamPerformance(reg, teamName, sportName, reply)
  {
  }

  /** Removing a key stat from a sport does not change what analysing its teams
      accepts. */
  lemma RemoveKeyStatKeepsAnalysis(reg: Registry, sportName: string, stat: string,
                                   teamName: string, teamSport: string, reply: Reply)
    requires RemoveKeyStat(reg, sportName, stat).Ok?
    ensures AnalyzeTeamPerformance(RemoveKeyStat(reg, sportName, stat).value, teamName, teamSport, reply) ==
            AnalyzeTeamPerformance(reg, teamName, teamSport, reply)
  {
    SportKeyStatsIgnored(reg, RemoveKeyStat(reg, sportName, stat).value.sports, teamName, teamSport, reply);
  }
}

=== FILE: analysis_facts.dfy ===
/** Consequences of validating against the team's stored stats. */
module AnalysisFacts {
  import opened Wrappers
  import opened Errors
  import opened Text
  import opened Registry
  import opened Validator
  import opened ValidatorFacts
  import opened Analysis

  /** A team whose stored stats include OPS gets any filler summary of 45 to 200
      words back unchanged, whatever key stats its sport lists at the time; with
      `SportKeyStatsIgnored` this is the behaviour of a stat removed from the sport
      but still held by the team. */
  lemma StoredStatAccepted(reg: Registry, teamName: string, sportName: string, n: nat)
    requires MinWords <= n <= MaxWords
    requires HasTeam(reg.teams, teamName, sportName)
    requires "OPS" in FetchTeamStats(reg, teamName, sportName).value
    ensures AnalyzeTeamPerformance(reg, teamName, sportName, Ok(Filler(n))) == Ok(Filler(n))
  {
    FillerTrimmed(n);
    TrimOfTrimmed(Filler(n));
    FillerPasses(n, FetchTeamStats(reg, teamName, sportName).value.Keys);
  }
}

=== FILE: errors.dfy ===
/** The kinds of `Error` the statistics registry and the summary validator throw.
    The source throws plain `Error` objects whose only distinguishing feature is the
    message text. Each kind of failure becomes one constructor here; the two wordings
    of a missing sport (`deleteSport` says "does not exist", the lookup used by the
    key-stat operations says "not found") are the same failure and share one. */
module Errors {

  datatype ErrKind =
    | DuplicateSport                        // "Sport ... already exists."
    | SportNotFound                         // "Sport ... does not exist." / "Sport ... not found."
    | SportHasTeams                         // "Cannot delete sport ... teams are still associated."
    | DuplicateTeam                         // "Team ... already exists for sport ..."
    | TeamNotFound                          // "Team ... not found for sport ..."
    | DuplicateStat                         // "Stat ... already exists for sport ..."
    | UnknownStat                           // "... is not a key stat for sport ..."
    | InvalidLength                         // "Invalid summary length ..."
    | MissingStatReference                  // "Summary does not reference any key stats ..."
    | HallucinatedStat(tokens: seq<string>) // "Summary mentions unrecognized stats ...: <tokens>"
    | GenerationFailed(message: string)     // whatever the language-model call throws, with its message
}

=== FILE: registry.dfy ===
/** The in-memory statistics registry of class `AISportsStats`: a list of sports
    and a list of teams, each operation a linear scan by exact string equality that
    either throws or makes one small update.

    The registry is an immutable value and every operation returns the registry it
    leaves behind. A team refers to its sport by name; the sport's key stats are
    looked up in the registry when they are needed, which is how the source's teams
    see key-stat edits through the `Sport` object they share with the registry. */
module Registry {
  import opened Wrappers
  import opened Errors

  /** A stat value: a JavaScript number that is only stored and copied. */
  type StatValue = real

  datatype Sport = Sport(name: string, source: string, keyStats: seq<string>)

  datatype Team = Team(teamName: string, sportName: string, stats: map<string, StatValue>)

  datatype Registry = Registry(sports: seq<Sport>, teams: seq<Team>)

  /** A freshly constructed `AISportsStats`. */
  const Empty := Registry([], [])

  // ---------------------------------------------------------------------------
  // lookups

  /** Some sport is called `name`. */
  predicate HasSport(sports: seq<Sport>, name: string) {
    exists i :: 0 <= i < |sports| && sports[i].name == name
  }

  /** `t` is the team `teamName` of sport `sportName`. */
  predicate IsTeam(t: Team, teamName: string, sportName: string) {
    t.teamName == teamName && t.sportName == sportName
  }

  /** Some team is the team `teamName` of sport `sportName`. */
  predicate HasTeam(teams: seq<Team>, teamName: string, sportName: string) {
    exists i :: 0 <= i < |teams| && IsTeam(teams[i], teamName, sportName)
  }

  /** `sports.find(s => s.name === name)`, as an index: the first sport called `name`. */
  function FindSport(sports: seq<Sport>, name: string): (r: Option<nat>)
    ensures r.None? <==> !HasSport(sports, name)
    ensures r.Some? ==> r.value < |sports| && sports[r.value].name == name
    ensures r.Some? ==> forall i :: 0 <= i < r.value ==> sports[i].name != name
  {
    if |sports| == 0 then None
    else if sports[0].name == name then Some(0)
    else match FindSport(sports[1..], name)
      case None => None
      case Some(i) => Some(i + 1)
  }

  /** `teams.find(t => t.teamName === teamName && t.sport.name === sportName)`, as an
      index: the first team with that name in that sport. */
  function FindTeam(teams: seq<Team>, teamName: string, sportName: string): (r: Option<nat>)
    ensures r.None? <==> !HasTeam(teams, teamName, sportName)
    ensures r.Some? ==> r.value < |teams| && IsTeam(teams[r.value], teamName, sportName)
    ensures r.Some? ==> forall i :: 0 <= i < r.value ==> !IsTeam(teams[i], teamName, sportName)
  {
    if |teams| == 0 then None
    else if teams[0].teamName == teamName && teams[0].sportName == sportName then Some(0)
    else match FindTeam(teams[1..], teamName, sportName)
      case None => None
      case Some(i) => Some(i + 1)
  }

  /** `teams.some(t => t.sport.name === name)`. */
  function AnyTeamOf(teams: seq<Team>, name: string): (b: bool)
    ensures b <==> exists i :: 0 <= i < |teams| && teams[i].sportName == name
  {
    if |teams| == 0 then false
    else teams[0].sportName == name || AnyTeamOf(teams[1..], name)
  }

  /** The key stats a team of sport `name` sees: those of the first registered sport
      of that name, and none when no sport of that name is registered. */
  function KeyStatsOf(sports: seq<Sport>, name: string): (ks: seq<string>)
    ensures HasSport(sports, name) ==> exists i :: 0 <= i < |sports| && sports[i].name == name && ks == sports[i].keyStats
    ensures !HasSport(sports, name) ==> ks == []
  {
    match FindSport(sports, name)
    case None => []
    case Some(i) => sports[i].keyStats
  }

  // ---------------------------------------------------------------------------
  // filters

  /** `sports.filter(s => s.name !== name)`. */
  function SportsWithout(sports: seq<Sport>, name: string): (r: seq<Sport>)
    ensures forall s :: s in r <==> s in sports && s.name != name
    ensures |r| <= |sports|
    ensures !HasSport(sports, name) ==> r == sports
  {
    if |sports| == 0 then []
    else if sports[0].name == name then SportsWithout(sports[1..], name)
    else [sports[0]] + SportsWithout(sports[1..], name)
  }

  /** `xs.filter(s => s !== x)`. */
  function Without(xs: seq<string>, x: string): (r: seq<string>)
    ensures forall y :: y in r <==> y in xs && y != x
    ensures multiset(r) == multiset(xs)[x := 0]
    ensures |r| <= |xs|
    ensures x !in xs ==> r == xs
  {
    if |xs| == 0 then []
    else
      assert xs == [xs[0]] + xs[1..];
      if xs[0] == x then Without(xs[1..], x)
      else [xs[0]] + Without(xs[1..], x)
  }

  /** The filter works piecewise, so the kept entries stay in their order. */
  lemma {:induction false} WithoutConcat(a: seq<string>, b: seq<string>, x: string)
    ensures Without(a + b, x) == Without(a, x) + Without(b, x)
    decreases |a|
  {
    if |a| == 0 {
      assert a + b == b;
    } else {
      assert (a + b)[1..] == a[1..] + b;
      WithoutConcat(a[1..], b, x);
    }
  }

  // ---------------------------------------------------------------------------
  // operations

  /** `addSport(name, source, defaultStats)`: refuses a name already in use;
      otherwise appends the new sport, whose key stats are `defaultStats`, and
      returns it. Teams are untouched. */
  function AddSport(reg: Registry, name: string, source: string, defaultStats: seq<string>)
    : (r: Result<(Registry, Sport), ErrKind>)
    ensures r.Err? <==> HasSport(reg.sports, name)
    ensures r.Err? ==> r.error == DuplicateSport
    ensures r.Ok? ==> r.value.1 == Sport(name, source, defaultStats)
    ensures r.Ok? ==> r.value.0.sports == reg.sports + [r.value.1] && r.value.0.teams == reg.teams
  {
    if FindSport(reg.sports, name).Some? then Err(DuplicateSport)
    else
      var sport := Sport(name, source, defaultStats);
      Ok((Registry(reg.sports + [sport], reg.teams), sport))
  }

  /** `deleteSport(name)`: refuses an unknown sport, then refuses a sport that some
      team still belongs to; otherwise removes every sport of that name and returns
      the first of them. Teams are untouched. */
  function DeleteSport(reg: Registry, name: string): (r: Result<(Registry, Sport), ErrKind>)
    ensures r == Err(SportNotFound) <==> !HasSport(reg.sports, name)
    ensures r == Err(SportHasTeams) <==>
              HasSport(reg.sports, name) && exists i :: 0 <= i < |reg.teams| && reg.teams[i].sportName == name
    ensures r.Err? ==> r.error in {SportNotFound, SportHasTeams}
    ensures r.Ok? ==> r.value.1 in reg.sports && r.value.1.name == name
    ensures r.Ok? ==> r.value.0.teams == reg.teams
    ensures r.Ok? ==> forall s :: s in r.value.0.sports <==> s in reg.sports && s.name != name
  {
    match FindSport(reg.sports, name)
    case None => Err(SportNotFound)
    case Some(i) =>
      if AnyTeamOf(reg.teams, name) then Err(SportHasTeams)
      else Ok((Registry(SportsWithout(reg.sports, name), reg.teams), reg.sports[i]))
  }

  /** `addTeam(teamName, sport)`: refuses a (team name, sport name) pair already
      present; otherwise appends a team of that sport with no stats and returns it.
      Sports are untouched. */
  function AddTeam(reg: Registry, teamName: string, sportName: string): (r: Result<(Registry, Team), ErrKind>)
    requires HasSport(reg.sports, sportName)
    ensures r.Err? <==> HasTeam(reg.teams, teamName, sportName)
    ensures r.Err? ==> r.error == DuplicateTeam
    ensures r.Ok? ==> r.value.1 == Team(teamName, sportName, map[])
    ensures r.Ok? ==> r.value.0.sports == reg.sports && r.value.0.teams == reg.teams + [r.value.1]
  {
    if FindTeam(reg.teams, teamName, sportName).Some? then Err(DuplicateTeam)
    else
      var team := Team(teamName, sportName, map[]);
      Ok((Registry(reg.sports, reg.teams + [team]), team))
  }

  /** `removeTeam(teamName, sport)`: refuses a team that is not present; otherwise
      removes the first matching team, and only it, and returns it. Sports are
      untouched. */
  function RemoveTeam(reg: Registry, teamName: string, sportName: string): (r: Result<(Registry, Team), ErrKind>)
    ensures r.Err? <==> !HasTeam(reg.teams, teamName, sportName)
    ensures r.Err? ==> r.error == TeamNotFound
    ensures r.Ok? ==> exists i :: 0 <= i < |reg.teams| && IsTeam(reg.teams[i], teamName, sportName)
                        && (forall j :: 0 <= j < i ==> !IsTeam(reg.teams[j], teamName, sportName))
                        && r.value.1 == reg.teams[i]
                        && r.value.0.teams == reg.teams[..i] + reg.teams[i + 1..]
    ensures r.Ok? ==> r.value.0.sports == reg.sports
  {
    match FindTeam(reg.teams, teamName, sportName)
    case None => Err(TeamNotFound)
    case Some(i) => Ok((Registry(reg.sports, reg.teams[..i] + reg.teams[i + 1..]), reg.teams[i]))
  }

  /** `addKeyStat(sportName, stat)`: refuses an unknown sport and a stat the sport
      already has; otherwise appends the stat to the key stats of the first sport of
      that name. No other sport and no team changes. */
  function AddKeyStat(reg: Registry, sportName: string, stat: string): (r: Result<Registry, ErrKind>)
    ensures r == Err(SportNotFound) <==> !HasSport(reg.sports, sportName)
    ensures r == Err(DuplicateStat) <==> HasSport(reg.sports, sportName) && stat in KeyStatsOf(reg.sports, sportName)
    ensures r.Err? ==> r.error in {SportNotFound, DuplicateStat}
    ensures r.Ok? ==> exists i :: 0 <= i < |reg.sports| && reg.sports[i].name == sportName
                        && r.value.sports == reg.sports[i := reg.sports[i].(keyStats := reg.sports[i].keyStats + [stat])]
    ensures r.Ok? ==> r.value.teams == reg.teams
    ensures r.Ok? ==> KeyStatsOf(r.value.sports, sportName) == KeyStatsOf(reg.sports, sportName) + [stat]
  {
    match FindSport(reg.sports, sportName)
    case None => Err(SportNotFound)
    case Some(i) =>
      var sport := reg.sports[i];
      if stat in sport.keyStats then Err(DuplicateStat)
      else
        var sports' := reg.sports[i := sport.(keyStats := sport.keyStats + [stat])];
        assert FindSport(sports', sportName) == Some(i) by {
          FindSportUnaffected(reg.sports, i, sport.(keyStats := sport.keyStats + [stat]), sportName);
        }
        Ok(Registry(sports', reg.teams))
  }

  /** `removeKeyStat(sportName, stat)`: refuses only an unknown sport; otherwise
      removes every occurrence of the stat from the key stats of the first sport of
      that name, keeping the order of the rest. No other sport and no team changes. */
  function RemoveKeyStat(reg: Registry, sportName: string, stat: string): (r: Result<Registry, ErrKind>)
    ensures r.Err? <==> !HasSport(reg.sports, sportName)
    ensures r.Err? ==> r.error == SportNotFound
    ensures r.Ok? ==> exists i :: 0 <= i < |reg.sports| && reg.sports[i].name == sportName
                        && r.value.sports == reg.sports[i := reg.sports[i].(keyStats := Without(reg.sports[i].keyStats, stat))]
    ensures r.Ok? ==> r.value.teams == reg.teams
    ensures r.Ok? ==> forall k :: k in KeyStatsOf(r.value.sports, sportName) <==>
                                   k in KeyStatsOf(reg.sports, sportName) && k != stat
  {
    match FindSport(reg.sports, sportName)
    case None => Err(SportNotFound)
    case Some(i) =>
      var sport := reg.sports[i];
      var sports' := reg.sports[i := sport.(keyStats := Without(sport.keyStats, stat))];
      assert FindSport(sports', sportName) == Some(i) by {
        FindSportUnaffected(reg.sports, i, sport.(keyStats := Without(sport.keyStats, stat)), sportName);
      }
      Ok(Registry(sports', reg.teams))
  }

  /** `updateStat(teamName, sport, stat, value)`: refuses a team that is not present,
      then a stat that is not a key stat of the team's sport; otherwise sets
      `stats[stat] := value` on the first matching team. Nothing else changes. */
  function UpdateStat(reg: Registry, teamName: string, sportName: string, stat: string, value: StatValue)
    : (r: Result<Registry, ErrKind>)
    ensures r == Err(TeamNotFound) <==> !HasTeam(reg.teams, teamName, sportName)
    ensures r == Err(UnknownStat) <==>
              HasTeam(reg.teams, teamName, sportName) && stat !in KeyStatsOf(reg.sports, sportName)
    ensures r.Err? ==> r.error in {TeamNotFound, UnknownStat}
    ensures r.Ok? ==> r.value.sports == reg.sports && |r.value.teams| == |reg.teams|
    ensures r.Ok? ==> exists i :: 0 <= i < |reg.teams| && IsTeam(reg.teams[i], teamName, sportName)
                        && (forall j :: 0 <= j < i ==> !IsTeam(reg.teams[j], teamName, sportName))
                        && r.value.teams == reg.teams[i := reg.teams[i].(stats := reg.teams[i].stats[stat := value])]
  {
    match FindTeam(reg.teams, teamName, sportName)
    case None => Err(TeamNotFound)
    case Some(i) =>
      var team := reg.teams[i];
      if stat !in KeyStatsOf(reg.sports, team.sportName) then Err(UnknownStat)
      else Ok(Registry(reg.sports, reg.teams[i := team.(stats := team.stats[stat := value])]))
  }

  /** `fetchTeamStats(teamName, sport)`: refuses a team that is not present; otherwise
      returns a copy of the first matching team's stats. */
  function FetchTeamStats(reg: Registry, teamName: string, sportName: string)
    : (r: Result<map<string, StatValue>, ErrKind>)
    ensures r.Err? <==> !HasTeam(reg.teams, teamName, sportName)
    ensures r.Err? ==> r.error == TeamNotFound
    ensures r.Ok? ==> exists i :: 0 <= i < |reg.teams| && IsTeam(reg.teams[i], teamName, sportName)
                        && (forall j :: 0 <= j < i ==> !IsTeam(reg.teams[j], teamName, sportName))
                        && r.value == reg.teams[i].stats
  {
    match FindTeam(reg.teams, teamName, sportName)
    case None => Err(TeamNotFound)
    case Some(i) => Ok(reg.teams[i].stats)
  }

  // ---------------------------------------------------------------------------
  // lookup stability

  /** Replacing sport `i` by one of the same name leaves every name lookup as it was. */
  lemma {:induction false} FindSportUnaffected(sports: seq<Sport>, i: nat, s: Sport, name: string)
    requires i < |sports| && s.name == sports[i].name
    ensures FindSport(sports[i := s], name) == FindSport(sports, name)
  {
    if i > 0 {
      assert sports[i := s][1..] == sports[1..][i - 1 := s];
      FindSportUnaffected(sports[1..], i - 1, s, name);
    }
  }

  /** Replacing team `i` by one with the same team and sport names leaves every team
      lookup as it was. */
  lemma {:induction false} FindTeamUnaffected(teams: seq<Team>, i: nat, t: Team, teamName: string, sportName: string)
    requires i < |teams| && t.teamName == teams[i].teamName && t.sportName == teams[i].sportName
    ensures FindTeam(teams[i := t], teamName, sportName) == FindTeam(teams, teamName, sportName)
  {
    if i > 0 {
      assert teams[i := t][1..] == teams[1..][i - 1 := t];
      FindTeamUnaffected(teams[1..], i - 1, t, teamName, sportName);
    }
  }
}

=== FILE: registry_facts.dfy ===
/** Properties of the statistics registry: the uniqueness and referential-integrity
    invariant every operation keeps, the precise effect of the removals under that
    invariant, how updates and fetches interact, and the setups of the system's own
    usage scenarios. */
module RegistryFacts {
  import opened Wrappers
  import opened Errors
  import opened Registry

  /** No two sports share a name. */
  predicate SportNamesDistinct(sports: seq<Sport>) {
    forall i, j :: 0 <= i < j < |sports| ==> sports[i].name != sports[j].name
  }

  /** No two teams share a (team name, sport name) pair. */
  predicate TeamKeysDistinct(teams: seq<Team>) {
    forall i, j :: 0 <= i < j < |teams| ==> !IsTeam(teams[j], teams[i].teamName, teams[i].sportName)
  }

  /** Every team belongs to a registered sport. */
  predicate TeamsRegistered(reg: Registry) {
    forall i :: 0 <= i < |reg.teams| ==> HasSport(reg.sports, reg.teams[i].sportName)
  }

  /** The invariant of every registry the operations can reach from `Empty`. */
  predicate Valid(reg: Registry) {
    SportNamesDistinct(reg.sports) && TeamKeysDistinct(reg.teams) && TeamsRegistered(reg)
  }

  /** Every stored stat of every team is a key stat of its sport. `updateStat` keeps
      this, but it is checked only when a stat is written: removing a key stat later
      leaves values stored under it. */
  predicate StatsAreKeyStats(reg: Registry) {
    forall i, k :: 0 <= i < |reg.teams| && k in reg.teams[i].stats ==> k in KeyStatsOf(reg.sports, reg.teams[i].sportName)
  }

  // ---------------------------------------------------------------------------
  // the invariant is kept

  lemma EmptyValid()
    ensures Valid(Empty) && StatsAreKeyStats(Empty)
  {
  }

  /** Adding a sport keeps sport names distinct: the new name was not in use. */
  lemma AddSportKeepsValid(reg: Registry, name: string, source: string, defaultStats: seq<string>)
    requires Valid(reg)
    requires AddSport(reg, name, source, defaultStats).Ok?
    ensures Valid(AddSport(reg, name, source, defaultStats).value.0)
  {
    var reg' := AddSport(reg, name, source, defaultStats).value.0;
    forall i | 0 <= i < |reg'.teams|
      ensures HasSport(reg'.sports, reg'.teams[i].sportName)
    {
      var j :| 0 <= j < |reg.sports| && reg.sports[j].name == reg.teams[i].sportName;
      assert reg'.sports[j] == reg.sports[j];
    }
  }

  /** With distinct names, filtering out the sport at `i` by its name removes exactly
      that one entry. */
  lemma {:induction false} SportsWithoutDistinct(sports: seq<Sport>, i: nat)
    requires SportNamesDistinct(sports) && i < |sports|
    ensures SportsWithout(sports, sports[i].name) == sports[..i] + sports[i + 1..]
  {
    var name := sports[i].name;
    var tail := sports[1..];
    TailDistinct(sports);
    if i == 0 {
      assert !HasSport(tail, name) by {
        forall k | 0 <= k < |tail| ensures tail[k].name != name {
          assert tail[k] == sports[k + 1];
        }
      }
    } else {
      assert tail[i - 1] == sports[i];
      SportsWithoutDistinct(tail, i - 1);
      assert SportsWithout(sports, name) == [sports[0]] + SportsWithout(tail, name);
      DropShift(sports, i);
    }
  }

  /** Dropping the first sport keeps names distinct. */
  lemma TailDistinct(sports: seq<Sport>)
    requires SportNamesDistinct(sports) && |sports| > 0
    ensures SportNamesDistinct(sports[1..])
  {
    var tail := sports[1..];
    forall a, b | 0 <= a < b < |tail| ensures tail[a].name != tail[b].name {
      assert tail[a] == sports[a + 1] && tail[b] == sports[b + 1];
    }
  }

  /** Removing entry `i` of `xs` is keeping its head and removing entry `i - 1` of its tail. */
  lemma DropShift<T>(xs: seq<T>, i: nat)
    requires 0 < i < |xs|
    ensures xs[..i] + xs[i + 1..] == [xs[0]] + (xs[1..][..i - 1] + xs[1..][i..])
  {
    assert xs[1..][..i - 1] == xs[1..i];
    assert xs[1..][i..] == xs[i + 1..];
    assert xs[..i] == [xs[0]] + xs[1..i];
  }

  /** Removing the entry at `i` from a sequence of sports with distinct names leaves
      distinct names, none of them the removed one, and every other name. */
  lemma RemoveSportAt(sports: seq<Sport>, i: nat)
    requires SportNamesDistinct(sports) && i < |sports|
    ensures var rest := sports[..i] + sports[i + 1..];
            && SportNamesDistinct(rest)
            && !HasSport(rest, sports[i].name)
            && forall n :: n != sports[i].name && HasSport(sports, n) ==> HasSport(rest, n)
  {
    var rest := sports[..i] + sports[i + 1..];
    forall a, b | 0 <= a < b < |rest|
      ensures rest[a].name != rest[b].name
    {
      var a' := if a < i then a else a + 1;
      var b' := if b < i then b else b + 1;
      assert rest[a] == sports[a'] && rest[b] == sports[b'];
    }
    forall j | 0 <= j < |rest|
      ensures rest[j].name != sports[i].name
    {
      var j' := if j < i then j else j + 1;
      assert rest[j] == sports[j'];
    }
    forall n | n != sports[i].name && HasSport(sports, n)
      ensures HasSport(rest, n)
    {
      var j :| 0 <= j < |sports| && sports[j].name == n;
      var j' := if j < i then j else j - 1;
      assert rest[j'] == sports[j];
    }
  }

  /** On a valid registry a successful `deleteSport` removes exactly the one sport of
      that name, keeping the others in order, so later lookups no longer find it; the
      invariant is kept because no team belonged to it. */
  lemma DeleteSportExact(reg: Registry, name: string)
    requires Valid(reg)
    requires DeleteSport(reg, name).Ok?
    ensures var r := DeleteSport(reg, name).value;
            && (exists i :: 0 <= i < |reg.sports| && reg.sports[i] == r.1
                            && r.0.sports == reg.sports[..i] + reg.sports[i + 1..])
            && !HasSport(r.0.sports, name)
            && |r.0.sports| == |reg.sports| - 1
            && Valid(r.0)
  {
    var r := DeleteSport(reg, name).value;
    var i := FindSport(reg.sports, name).value;
    assert r.1 == reg.sports[i];
    SportsWithoutDistinct(reg.sports, i);
    assert r.0.sports == reg.sports[..i] + reg.sports[i + 1..];
    RemoveSportAt(reg.sports, i);
    forall t | 0 <= t < |r.0.teams|
      ensures HasSport(r.0.sports, r.0.teams[t].sportName)
    {
      assert r.0.teams[t].sportName != name;
    }
  }

  /** Adding a team keeps (team, sport) pairs distinct and every team registered. */
  lemma AddTeamKeepsValid(reg: Registry, teamName: string, sportName: string)
    requires Valid(reg) && HasSport(reg.sports, sportName)
    requires AddTeam(reg, teamName, sportName).Ok?
    ensures Valid(AddTeam(reg, teamName, sportName).value.0)
    ensures StatsAreKeyStats(reg) ==> StatsAreKeyStats(AddTeam(reg, teamName, sportName).value.0)
  {
  }

  /** Removing the entry at `i` from a sequence of teams with distinct (team, sport)
      pairs leaves distinct pairs, none of them the removed one, and only teams that
      were there before. */
  lemma RemoveTeamAt(teams: seq<Team>, i: nat)
    requires TeamKeysDistinct(teams) && i < |teams|
    ensures var rest := teams[..i] + teams[i + 1..];
            && TeamKeysDistinct(rest)
            && !HasTeam(rest, teams[i].teamName, teams[i].sportName)
            && forall j :: 0 <= j < |rest| ==> rest[j] in teams
  {
    var rest := teams[..i] + teams[i + 1..];
    forall a, b | 0 <= a < b < |rest|
      ensures !IsTeam(rest[b], rest[a].teamName, rest[a].sportName)
    {
      var a' := if a < i then a else a + 1;
      var b' := if b < i then b else b + 1;
      assert rest[a] == teams[a'] && rest[b] == teams[b'];
    }
    forall j | 0 <= j < |rest|
      ensures !IsTeam(rest[j], teams[i].teamName, teams[i].sportName) && rest[j] in teams
    {
      var j' := if j < i then j else j + 1;
      assert rest[j] == teams[j'];
    }
  }

  /** On a valid registry a successful `removeTeam` leaves no team of that name in
      that sport, and keeps the invariant. */
  lemma RemoveTeamExact(reg: Registry, teamName: string, sportName: string)
    requires Valid(reg)
    requires RemoveTeam(reg, teamName, sportName).Ok?
    ensures var reg' := RemoveTeam(reg, teamName, sportName).value.0;
            && !HasTeam(reg'.teams, teamName, sportName)
            && |reg'.teams| == |reg.teams| - 1
            && Valid(reg')
  {
    var reg' := RemoveTeam(reg, teamName, sportName).value.0;
    var i := FindTeam(reg.teams, teamName, sportName).value;
    assert reg'.teams == reg.teams[..i] + reg.teams[i + 1..];
    RemoveTeamAt(reg.teams, i);
    forall j | 0 <= j < |reg'.teams|
      ensures HasSport(reg'.sports, reg'.teams[j].sportName)
    {
      var k :| 0 <= k < |reg.teams| && reg.teams[k] == reg'.teams[j];
    }
  }

  /** Key-stat edits keep sport names, so they keep the invariant. */
  lemma KeyStatEditsKeepValid(reg: Registry, sportName: string, stat: string)
    requires Valid(reg)
    ensures AddKeyStat(reg, sportName, stat).Ok? ==> Valid(AddKeyStat(reg, sportName, stat).value)
    ensures RemoveKeyStat(reg, sportName, stat).Ok? ==> Valid(RemoveKeyStat(reg, sportName, stat).value)
  {
    if AddKeyStat(reg, sportName, stat).Ok? {
      var reg' := AddKeyStat(reg, sportName, stat).value;
      SameNamesKeepValid(reg, reg');
    }
    if RemoveKeyStat(reg, sportName, stat).Ok? {
      var reg' := RemoveKeyStat(reg, sportName, stat).value;
      SameNamesKeepValid(reg, reg');
    }
  }

  /** A registry whose sports have the same names and whose teams are the same is
      valid when the original is. */
  lemma SameNamesKeepValid(reg: Registry, reg': Registry)
    requires Valid(reg)
    requires |reg'.sports| == |reg.sports| && reg'.teams == reg.teams
    requires forall i :: 0 <= i < |reg.sports| ==> reg'.sports[i].name == reg.sports[i].name
    ensures Valid(reg')
  {
    forall t | 0 <= t < |reg'.teams|
      ensures HasSport(reg'.sports, reg'.teams[t].sportName)
    {
      var j :| 0 <= j < |reg.sports| && reg.sports[j].name == reg.teams[t].sportName;
      assert reg'.sports[j].name == reg.sports[j].name;
    }
  }

  /** Updating a stat changes no name, so it keeps the invariant; it also keeps every
      stored stat a key stat, because the stat written was checked to be one. */
  lemma UpdateStatKeepsValid(reg: Registry, teamName: string, sportName: string, stat: string, value: StatValue)
    requires Valid(reg)
    requires UpdateStat(reg, teamName, sportName, stat, value).Ok?
    ensures Valid(UpdateStat(reg, teamName, sportName, stat, value).value)
    ensures StatsAreKeyStats(reg) ==> StatsAreKeyStats(UpdateStat(reg, teamName, sportName, stat, value).value)
  {
    var reg' := UpdateStat(reg, teamName, sportName, stat, value).value;
    var i :| 0 <= i < |reg.teams| && IsTeam(reg.teams[i], teamName, sportName)
             && reg'.teams == reg.teams[i := reg.teams[i].(stats := reg.teams[i].stats[stat := value])];
    forall a, b | 0 <= a < b < |reg'.teams|
      ensures !IsTeam(reg'.teams[b], reg'.teams[a].teamName, reg'.teams[a].sportName)
    {
      assert reg'.teams[a].teamName == reg.teams[a].teamName && reg'.teams[a].sportName == reg.teams[a].sportName;
      assert reg'.teams[b].teamName == reg.teams[b].teamName && reg'.teams[b].sportName == reg.teams[b].sportName;
    }
    forall t | 0 <= t < |reg'.teams|
      ensures HasSport(reg'.sports, reg'.teams[t].sportName)
    {
      assert reg'.teams[t].sportName == reg.teams[t].sportName;
    }
  }

  /** Removing a key stat can leave a value stored under it: the check in
      `updateStat` is made when a stat is written and never again. */
  lemma RemoveKeyStatLeavesStaleStats()
    ensures var reg := Registry([Sport("Baseball", "MLB API", ["OPS"])], [Team("Phillies", "Baseball", map["OPS" := 0.776])]);
            && Valid(reg) && StatsAreKeyStats(reg)
            && RemoveKeyStat(reg, "Baseball", "OPS").Ok?
            && !StatsAreKeyStats(RemoveKeyStat(reg, "Baseball", "OPS").value)
  {
    var reg := Registry([Sport("Baseball", "MLB API", ["OPS"])], [Team("Phillies", "Baseball", map["OPS" := 0.776])]);
    assert reg.sports[0].name == "Baseball";
    assert HasSport(reg.sports, "Baseball");
    var reg' := RemoveKeyStat(reg, "Baseball", "OPS").value;
    assert reg'.sports[0].keyStats == [];
    assert "OPS" in reg'.teams[0].stats;
  }

  // ---------------------------------------------------------------------------
  // key stats, updates and fetches

  /** `removeKeyStat` is idempotent: a second removal of the same stat changes nothing. */
  lemma RemoveKeyStatIdempotent(reg: Registry, sportName: string, stat: string)
    requires RemoveKeyStat(reg, sportName, stat).Ok?
    ensures var reg' := RemoveKeyStat(reg, sportName, stat).value;
            RemoveKeyStat(reg', sportName, stat) == Ok(reg')
  {
    var reg' := RemoveKeyStat(reg, sportName, stat).value;
    var i := FindSport(reg.sports, sportName).value;
    FindSportUnaffected(reg.sports, i, reg'.sports[i], sportName);
    assert FindSport(reg'.sports, sportName) == Some(i);
    assert reg'.sports[i := reg'.sports[i].(keyStats := Without(reg'.sports[i].keyStats, stat))] == reg'.sports;
  }

  /** `updateStat` followed by `fetchTeamStats` of the same team returns the stats it
      had, with `stat` now mapped to `value`. */
  lemma UpdateThenFetch(reg: Registry, teamName: string, sportName: string, stat: string, value: StatValue)
    requires UpdateStat(reg, teamName, sportName, stat, value).Ok?
    ensures var reg' := UpdateStat(reg, teamName, sportName, stat, value).value;
            && FetchTeamStats(reg, teamName, sportName).Ok?
            && FetchTeamStats(reg', teamName, sportName) == Ok(FetchTeamStats(reg, teamName, sportName).value[stat := value])
  {
    var reg' := UpdateStat(reg, teamName, sportName, stat, value).value;
    var i := FindTeam(reg.teams, teamName, sportName).value;
    FindTeamUnaffected(reg.teams, i, reg'.teams[i], teamName, sportName);
  }

  /** `updateStat` on one team leaves what `fetchTeamStats` returns for every other
      (team, sport) pair unchanged. */
  lemma UpdateLeavesOtherTeams(reg: Registry, teamName: string, sportName: string, stat: string, value: StatValue,
                               otherTeam: string, otherSport: string)
    requires UpdateStat(reg, teamName, sportName, stat, value).Ok?
    requires otherTeam != teamName || otherSport != sportName
    ensures FetchTeamStats(UpdateStat(reg, teamName, sportName, stat, value).value, otherTeam, otherSport)
            == FetchTeamStats(reg, otherTeam, otherSport)
  {
    var reg' := UpdateStat(reg, teamName, sportName, stat, value).value;
    var i := FindTeam(reg.teams, teamName, sportName).value;
    FindTeamUnaffected(reg.teams, i, reg'.teams[i], otherTeam, otherSport);
  }

  /** On a valid registry, a stat that is not a key stat of a registered team's sport
      is refused whatever that team currently stores and whatever the value. */
  lemma UpdateUnknownStatRefused(reg: Registry, teamName: string, sportName: string, stat: string, value: StatValue)
    requires Valid(reg) && HasTeam(reg.teams, teamName, sportName)
    requires forall i :: 0 <= i < |reg.sports| && reg.sports[i].name == sportName ==> stat !in reg.sports[i].keyStats
    ensures UpdateStat(reg, teamName, sportName, stat, value) == Err(UnknownStat)
  {
  }

  // ---------------------------------------------------------------------------
  // usage scenarios

  /** The manual scenario: register baseball with OPS, ERA and AVG, add the Phillies,
      set three stats, and fetch exactly those three values back. */
  lemma ManualStatsScenario()
    ensures var r0 := AddSport(Empty, "Baseball", "MLB API", ["OPS", "ERA", "AVG"]);
            && r0.Ok? && HasSport(r0.value.0.sports, "Baseball")
            && var r1 := AddTeam(r0.value.0, "Philadelphia Phillies", "Baseball");
            && r1.Ok?
            && var r2 := UpdateStat(r1.value.0, "Philadelphia Phillies", "Baseball", "OPS", 0.776);
            && r2.Ok?
            && var r3 := UpdateStat(r2.value, "Philadelphia Phillies", "Baseball", "ERA", 3.91);
            && r3.Ok?
            && var r4 := UpdateStat(r3.value, "Philadelphia Phillies", "Baseball", "AVG", 0.258);
            && r4.Ok?
            && FetchTeamStats(r4.value, "Philadelphia Phillies", "Baseball")
               == Ok(map["OPS" := 0.776, "ERA" := 3.91, "AVG" := 0.258])
            && DeleteSport(r4.value, "Baseball") == Err(SportHasTeams)
  {
    var r0 := AddSport(Empty, "Baseball", "MLB API", ["OPS", "ERA", "AVG"]);
    assert r0.value.0.sports[0].name == "Baseball";
    var r1 := AddTeam(r0.value.0, "Philadelphia Phillies", "Baseball");
    var r2 := UpdateStat(r1.value.0, "Philadelphia Phillies", "Baseball", "OPS", 0.776);
    UpdateThenFetch(r1.value.0, "Philadelphia Phillies", "Baseball", "OPS", 0.776);
    var r3 := UpdateStat(r2.value, "Philadelphia Phillies", "Baseball", "ERA", 3.91);
    UpdateThenFetch(r2.value, "Philadelphia Phillies", "Baseball", "ERA", 3.91);
    var r4 := UpdateStat(r3.value, "Philadelphia Phillies", "Baseball", "AVG", 0.258);
    UpdateThenFetch(r3.value, "Philadelphia Phillies", "Baseball", "AVG", 0.258);
    assert r4.value.teams[0].sportName == "Baseball";
  }

  const Phillies := "Philadelphia Phillies"
  const RedSox := "Boston Red Sox"
  const Sixers := "Philadelphia 76ers"

  /** The registry of the multi-team scenario once its sports and teams are added. */
  const MultiTeamStart := Registry(
    [Sport("Baseball", "MLB API", ["OPS", "ERA", "AVG"]), Sport("Basketball", "NBA API", ["PPG", "RPG", "FG%"])],
    [Team(Phillies, "Baseball", map[]), Team(RedSox, "Baseball", map[]), Team(Sixers, "Basketball", map[])])

  /** The multi-team setup: two sports and three teams are added without error, and
      a second Phillies is refused. */
  lemma MultiTeamSetup()
    ensures var r0 := AddSport(Empty, "Baseball", "MLB API", ["OPS", "ERA", "AVG"]);
            && r0.Ok?
            && var r1 := AddSport(r0.value.0, "Basketball", "NBA API", ["PPG", "RPG", "FG%"]);
            && r1.Ok? && HasSport(r1.value.0.sports, "Baseball") && HasSport(r1.value.0.sports, "Basketball")
            && var r2 := AddTeam(r1.value.0, Phillies, "Baseball");
            && r2.Ok? && r2.value.0.sports == r1.value.0.sports
            && var r3 := AddTeam(r2.value.0, RedSox, "Baseball");
            && r3.Ok? && r3.value.0.sports == r1.value.0.sports
            && var r4 := AddTeam(r3.value.0, Sixers, "Basketball");
            && r4.Ok? && r4.value.0 == MultiTeamStart
            && AddTeam(r4.value.0, Phillies, "Baseball") == Err(DuplicateTeam)
  {
    var r0 := AddSport(Empty, "Baseball", "MLB API", ["OPS", "ERA", "AVG"]);
    var r1 := AddSport(r0.value.0, "Basketball", "NBA API", ["PPG", "RPG", "FG%"]);
    assert r1.value.0.sports[0].name == "Baseball" && r1.value.0.sports[1].name == "Basketball";
    var r2 := AddTeam(r1.value.0, Phillies, "Baseball");
    assert r2.value.0.teams[0].teamName == Phillies;
    var r3 := AddTeam(r2.value.0, RedSox, "Baseball");
    assert r3.value.0.teams[1].teamName == RedSox;
    var r4 := AddTeam(r3.value.0, Sixers, "Basketball");
    assert r4.value.0.teams[0] == MultiTeamStart.teams[0];
  }

  /** `reg` has the sports of the multi-team setup and its three teams fetch `phillies`,
      `redSox` and `sixers`; the Phillies are not a basketball team. */
  predicate MultiTeamFetches(reg: Registry, phillies: map<string, StatValue>,
                             redSox: map<string, StatValue>, sixers: map<string, StatValue>)
  {
    && reg.sports == MultiTeamStart.sports
    && FetchTeamStats(reg, Phillies, "Baseball") == Ok(phillies)
    && FetchTeamStats(reg, RedSox, "Baseball") == Ok(redSox)
    && FetchTeamStats(reg, Sixers, "Basketball") == Ok(sixers)
    && FetchTeamStats(reg, Phillies, "Basketball") == Err(TeamNotFound)
  }

  /** What the three teams of the multi-team setup fetch before any update. */
  lemma MultiTeamStartFetches()
    ensures FetchTeamStats(MultiTeamStart, Phillies, "Baseball") == Ok(map[])
    ensures FetchTeamStats(MultiTeamStart, RedSox, "Baseball") == Ok(map[])
    ensures FetchTeamStats(MultiTeamStart, Sixers, "Basketball") == Ok(map[])
    ensures FetchTeamStats(MultiTeamStart, Phillies, "Basketball") == Err(TeamNotFound)
    ensures KeyStatsOf(MultiTeamStart.sports, "Baseball") == ["OPS", "ERA", "AVG"]
    ensures KeyStatsOf(MultiTeamStart.sports, "Basketball") == ["PPG", "RPG", "FG%"]
    ensures MultiTeamFetches(MultiTeamStart, map[], map[], map[])
  {
    var ts := MultiTeamStart.teams;
    assert IsTeam(ts[0], Phillies, "Baseball");
    assert !IsTeam(ts[0], RedSox, "Baseball") && IsTeam(ts[1], RedSox, "Baseball");
    assert !IsTeam(ts[0], Sixers, "Basketball") && !IsTeam(ts[1], Sixers, "Basketball");
    assert IsTeam(ts[2], Sixers, "Basketball");
    assert forall i :: 0 <= i < |ts| ==> !IsTeam(ts[i], Phillies, "Basketball");
    assert MultiTeamStart.sports[0].name == "Baseball";
    assert MultiTeamStart.sports[0].name != "Basketball" && MultiTeamStart.sports[1].name == "Basketball";
  }

  /** One update of the multi-team scenario: it succeeds, only the updated team's
      fetch changes, and it gains the value. */
  lemma MultiTeamStep(reg: Registry, ph: map<string, StatValue>, rs: map<string, StatValue>, sx: map<string, StatValue>,
                      teamName: string, sportName: string, stat: string, value: StatValue)
    requires MultiTeamFetches(reg, ph, rs, sx)
    requires (teamName, sportName) in {(Phillies, "Baseball"), (RedSox, "Baseball"), (Sixers, "Basketball")}
    requires stat in KeyStatsOf(MultiTeamStart.sports, sportName)
    ensures UpdateStat(reg, teamName, sportName, stat, value).Ok?
    ensures MultiTeamFetches(UpdateStat(reg, teamName, sportName, stat, value).value,
              if teamName == Phillies then ph[stat := value] else ph,
              if teamName == RedSox then rs[stat := value] else rs,
              if teamName == Sixers then sx[stat := value] else sx)
  {
    UpdateThenFetch(reg, teamName, sportName, stat, value);
    if teamName != Phillies {
      UpdateLeavesOtherTeams(reg, teamName, sportName, stat, value, Phillies, "Baseball");
    }
    if teamName != RedSox {
      UpdateLeavesOtherTeams(reg, teamName, sportName, stat, value, RedSox, "Baseball");
    }
    if teamName != Sixers {
      UpdateLeavesOtherTeams(reg, teamName, sportName, stat, value, Sixers, "Basketball");
    }
    UpdateLeavesOtherTeams(reg, teamName, sportName, stat, value, Phillies, "Basketball");
  }

  /** The first two updates of the multi-team scenario, both to the Phillies: they
      succeed and only the Phillies' stats change. */
  lemma PhilliesUpdates(start: Registry)
    requires MultiTeamFetches(start, map[], map[], map[])
    ensures var u1 := UpdateStat(start, Phillies, "Baseball", "OPS", 0.844);
            && u1.Ok?
            && var u2 := UpdateStat(u1.value, Phillies, "Baseball", "ERA", 4.32);
            && u2.Ok?
            && MultiTeamFetches(u2.value, map["OPS" := 0.844, "ERA" := 4.32], map[], map[])
  {
    MultiTeamStartFetches();
    var e: map<string, StatValue> := map[];
    MultiTeamStep(start, e, e, e, Phillies, "Baseball", "OPS", 0.844);
    var u1 := UpdateStat(start, Phillies, "Baseball", "OPS", 0.844).value;
    MultiTeamStep(u1, e["OPS" := 0.844], e, e, Phillies, "Baseball", "ERA", 4.32);
  }

  /** The remaining three updates of the multi-team scenario: after them each team
      fetches exactly its own stats, and the Phillies are still not a basketball
      team. */
  lemma OtherTeamUpdates(reg: Registry)
    requires MultiTeamFetches(reg, map["OPS" := 0.844, "ERA" := 4.32], map[], map[])
    ensures var u3 := UpdateStat(reg, RedSox, "Baseball", "OPS", 0.802);
            && u3.Ok?
            && var u4 := UpdateStat(u3.value, RedSox, "Baseball", "AVG", 0.300);
            && u4.Ok?
            && var u5 := UpdateStat(u4.value, Sixers, "Basketball", "PPG", 96.3);
            && u5.Ok?
            && FetchTeamStats(u5.value, Phillies, "Baseball") == Ok(map["OPS" := 0.844, "ERA" := 4.32])
            && FetchTeamStats(u5.value, RedSox, "Baseball") == Ok(map["OPS" := 0.802, "AVG" := 0.300])
            && FetchTeamStats(u5.value, Sixers, "Basketball") == Ok(map["PPG" := 96.3])
            && FetchTeamStats(u5.value, Phillies, "Basketball") == Err(TeamNotFound)
            && MultiTeamFetches(u5.value, map["OPS" := 0.844, "ERA" := 4.32],
                                map["OPS" := 0.802, "AVG" := 0.300], map["PPG" := 96.3])
  {
    MultiTeamStartFetches();
    var e: map<string, StatValue> := map[];
    var p2 := map["OPS" := 0.844, "ERA" := 4.32];
    MultiTeamStep(reg, p2, e, e, RedSox, "Baseball", "OPS", 0.802);
    var u3 := UpdateStat(reg, RedSox, "Baseball", "OPS", 0.802).value;
    var r3 := e["OPS" := 0.802];
    MultiTeamStep(u3, p2, r3, e, RedSox, "Baseball", "AVG", 0.300);
    var u4 := UpdateStat(u3, RedSox, "Baseball", "AVG", 0.300).value;
    MultiTeamStep(u4, p2, r3["AVG" := 0.300], e, Sixers, "Basketball", "PPG", 96.3);
    var u5 := UpdateStat(u4, Sixers, "Basketball", "PPG", 96.3).value;
    assert HasTeam(u5.teams, Sixers, "Basketball");
  }

  /** In the multi-team setup, at any point of the scenario, a baseball stat is
      refused for the basketball team. */
  lemma BaseballStatRefusedForSixers(reg: Registry, ph: map<string, StatValue>, rs: map<string, StatValue>,
                                     sx: map<string, StatValue>, value: StatValue)
    requires MultiTeamFetches(reg, ph, rs, sx)
    ensures UpdateStat(reg, Sixers, "Basketball", "OPS", value) == Err(UnknownStat)
  {
    MultiTeamStartFetches();
    assert HasTeam(reg.teams, Sixers, "Basketball");
    assert "OPS" !in KeyStatsOf(reg.sports, "Basketball");
  }
}

=== FILE: text.dfy ===
/** The JavaScript string primitives the summary validator relies on:
    `String.prototype.trim`, `split(/\s+/)`, `includes`, and the character
    classes `\s`, `\d`, `\w` and `[A-Z]` of a regular expression without the
    `u` flag. Strings are sequences of Unicode scalar values. */
module Text {

  /** A character matched by `\s`; the same set is what `trim` strips
      (ECMAScript WhiteSpace, which includes every space separator, and LineTerminator). */
  predicate IsSpace(c: char) {
    || c == '\t' || c == '\n' || c == '\U{000B}' || c == '\U{000C}' || c == '\r'
    || c == ' ' || c == '\U{00A0}' || c == '\U{1680}'
    || ('\U{2000}' <= c <= '\U{200A}')
    || c == '\U{2028}' || c == '\U{2029}' || c == '\U{202F}' || c == '\U{205F}'
    || c == '\U{3000}' || c == '\U{FEFF}'
  }

  /** A character matched by `\d`. */
  predicate IsDigit(c: char) {
    '0' <= c <= '9'
  }

  /** A character matched by `[A-Z]`. */
  predicate IsUpper(c: char) {
    'A' <= c <= 'Z'
  }

  /** A character matched by `\w`, the class that decides where `\b` holds. */
  predicate IsWordChar(c: char) {
    IsUpper(c) || ('a' <= c <= 'z') || IsDigit(c) || c == '_'
  }

  /** The number of UTF-16 code units that encode `c`: one in the Basic Multilingual
      Plane, two (a surrogate pair) above it. A regular expression without the `u`
      flag steps through a string one code unit at a time. */
  function Utf16Units(c: char): nat {
    if c <= '\U{FFFF}' then 1 else 2
  }

  /** The number of UTF-16 code units of `s[i..j]`. */
  function UnitsBetween(s: string, i: int, j: int): nat
    requires 0 <= i <= j <= |s|
    decreases j - i
  {
    if i == j then 0 else Utf16Units(s[i]) + UnitsBetween(s, i + 1, j)
  }

  /** Every character takes one or two code units. */
  lemma {:induction false} UnitsBetweenBounds(s: string, i: int, j: int)
    requires 0 <= i <= j <= |s|
    ensures j - i <= UnitsBetween(s, i, j) <= 2 * (j - i)
    decreases j - i
  {
    if i < j {
      UnitsBetweenBounds(s, i + 1, j);
    }
  }

  // ---------------------------------------------------------------------------
  // trim

  /** `s` neither starts nor ends with whitespace. */
  predicate Trimmed(s: string) {
    |s| == 0 || (!IsSpace(s[0]) && !IsSpace(s[|s| - 1]))
  }

  /** `s` with its leading whitespace removed. */
  function TrimStart(s: string): (r: string)
    ensures |r| <= |s| && r == s[|s| - |r|..]
    ensures forall i :: 0 <= i < |s| - |r| ==> IsSpace(s[i])
    ensures |r| > 0 ==> !IsSpace(r[0])
  {
    if |s| > 0 && IsSpace(s[0]) then TrimStart(s[1..]) else s
  }

  /** `s` with its trailing whitespace removed. */
  function TrimEnd(s: string): (r: string)
    ensures |r| <= |s| && r == s[..|r|]
    ensures forall i :: |r| <= i < |s| ==> IsSpace(s[i])
    ensures |r| > 0 ==> !IsSpace(r[|r| - 1])
  {
    if |s| > 0 && IsSpace(s[|s| - 1]) then TrimEnd(s[..|s| - 1]) else s
  }

  /** `r` is what remains of `s` once `start` whitespace characters are cut from
      its front and all characters after `r` (whitespace only) from its back. */
  predicate IsTrimOf(s: string, r: string, start: int) {
    && 0 <= start && start + |r| <= |s|
    && r == s[start..start + |r|]
    && (forall i :: 0 <= i < start ==> IsSpace(s[i]))
    && (forall i :: start + |r| <= i < |s| ==> IsSpace(s[i]))
  }

  /** `String.prototype.trim`: the largest infix of `s` that is free of
      whitespace at both ends, obtained by cutting whitespace only. */
  function Trim(s: string): (r: string)
    ensures Trimmed(r)
    ensures exists start :: IsTrimOf(s, r, start)
    ensures |r| == 0 <==> forall i :: 0 <= i < |s| ==> IsSpace(s[i])
  {
    var u := TrimStart(s);
    var r := TrimEnd(u);
    assert r == s[|s| - |u|..][..|r|];
    assert IsTrimOf(s, r, |s| - |u|);
    r
  }

  /** Trimming an already trimmed string changes nothing. */
  lemma TrimOfTrimmed(s: string)
    requires Trimmed(s)
    ensures Trim(s) == s
  {
  }

  /** `trim` is idempotent, so re-trimming a trimmed summary is harmless. */
  lemma TrimIdempotent(s: string)
    ensures Trim(Trim(s)) == Trim(s)
  {
    TrimOfTrimmed(Trim(s));
  }

  // ---------------------------------------------------------------------------
  // includes

  /** `k` occurs in `s` starting at position `p`. */
  predicate OccursAt(s: string, k: string, p: int) {
    0 <= p && p + |k| <= |s| && s[p..p + |k|] == k
  }

  /** `s.includes(k, from)`: a left-to-right search for `k` from position `from`. */
  function IncludesFrom(s: string, k: string, from: nat): (b: bool)
    requires from <= |s|
    ensures b <==> exists p :: from <= p && OccursAt(s, k, p)
    decreases |s| - from
  {
    if from + |k| > |s| then false
    else if s[from..from + |k|] == k then
      assert OccursAt(s, k, from);
      true
    else
      IncludesFrom(s, k, from + 1)
  }

  /** `s.includes(k)`. */
  function Includes(s: string, k: string): (b: bool)
    ensures b <==> exists p :: OccursAt(s, k, p)
  {
    IncludesFrom(s, k, 0)
  }

  // ---------------------------------------------------------------------------
  // split(/\s+/) and the word count

  /** `s.split(/\s+/)`: the pieces between maximal whitespace runs, including the
      empty piece before a leading run and the empty piece after a trailing one;
      the empty string splits into one empty piece. */
  function Split(s: string): (r: seq<string>)
    ensures |r| >= 1
    ensures forall k, i :: 0 <= k < |r| && 0 <= i < |r[k]| ==> !IsSpace(r[k][i])
    decreases |s|
  {
    if |s| == 0 then [""]
    else if IsSpace(s[0]) then [""] + Split(TrimStart(s))
    else
      var rest := Split(s[1..]);
      [[s[0]] + rest[0]] + rest[1..]
  }

  /** `s.trim().split(/\s+/).length`, the word count the validator uses. */
  function WordCount(s: string): nat {
    |Split(Trim(s))|
  }

  /** The number of maximal runs of non-whitespace characters in `s`, counted at
      the character that ends each run. */
  function WordsIn(s: string): nat {
    if |s| == 0 then 0
    else (if !IsSpace(s[0]) && (|s| == 1 || IsSpace(s[1])) then 1 else 0) + WordsIn(s[1..])
  }

  /** Leading whitespace holds no word. */
  lemma {:induction false} WordsInTrimStart(s: string)
    ensures WordsIn(TrimStart(s)) == WordsIn(s)
    decreases |s|
  {
    if |s| > 0 && IsSpace(s[0]) {
      WordsInTrimStart(s[1..]);
    }
  }

  /** Dropping one trailing whitespace character keeps every word. */
  lemma {:induction false} WordsInDropTrailingSpace(s: string)
    requires |s| > 0 && IsSpace(s[|s| - 1])
    ensures WordsIn(s[..|s| - 1]) == WordsIn(s)
    decreases |s|
  {
    var p := s[..|s| - 1];
    if |s| > 2 {
      assert p[1..] == s[1..][..|s[1..]| - 1];
      WordsInDropTrailingSpace(s[1..]);
    } else if |s| == 2 {
      assert WordsIn(s[1..]) == 0;
      assert WordsIn(p[1..]) == 0;
    }
  }

  /** Trailing whitespace holds no word. */
  lemma {:induction false} WordsInTrimEnd(s: string)
    ensures WordsIn(TrimEnd(s)) == WordsIn(s)
    decreases |s|
  {
    if |s| > 0 && IsSpace(s[|s| - 1]) {
      WordsInDropTrailingSpace(s);
      WordsInTrimEnd(s[..|s| - 1]);
    }
  }

  /** A string that ends in a non-whitespace character holds at least one word. */
  lemma {:induction false} WordsInPositive(s: string)
    requires |s| > 0 && !IsSpace(s[|s| - 1])
    ensures WordsIn(s) >= 1
    decreases |s|
  {
    if |s| > 1 {
      WordsInPositive(s[1..]);
    }
  }

  /** For a string that is empty or ends in a non-whitespace character, `split(/\s+/)`
      yields one piece per word, plus one empty piece when the string is empty or
      starts with whitespace. */
  lemma {:induction false} SplitLength(s: string)
    requires |s| == 0 || !IsSpace(s[|s| - 1])
    ensures |Split(s)| == WordsIn(s) + (if |s| == 0 || IsSpace(s[0]) then 1 else 0)
    decreases |s|
  {
    if |s| == 0 {
    } else if IsSpace(s[0]) {
      var u := TrimStart(s);
      assert !IsSpace(s[|s| - 1]);
      assert |u| > 0;
      assert u[|u| - 1] == s[|s| - 1];
      SplitLength(u);
      WordsInTrimStart(s);
    } else {
      SplitLength(s[1..]);
    }
  }

  /** The word count of a summary is the number of its whitespace-separated words,
      except that a summary with no words at all (empty or all whitespace) counts
      as one word, because `"".split(/\s+/)` is `[""]`. */
  lemma WordCountIsWords(s: string)
    ensures WordCount(s) == if WordsIn(s) == 0 then 1 else WordsIn(s)
  {
    var t := Trim(s);
    WordsInTrimStart(s);
    WordsInTrimEnd(TrimStart(s));
    assert WordsIn(t) == WordsIn(s);
    SplitLength(t);
    if |t| > 0 {
      WordsInPositive(t);
    }
  }
}

=== FILE: validator.dfy ===
/** `validateSummary(summary, stats, keyStats)`: three checks run in order, the
    first failing one deciding the error.

    1. Length: the trimmed summary, split on whitespace runs, has 45 to 200 pieces.
    2. Mention: some key stat occurs verbatim in the summary.
    3. Hallucination: every match of `\b[A-Z]{2,5}\b` that is not itself a key stat
       is searched for with `TOKEN[^\d]{0,10}\d+(\.\d+)?` against the whole summary, and
       the tokens for which the test succeeds are reported.

    The key stats are only ever asked whether they contain a string, so they are a
    set here. The `stats` argument is never read by the source and is omitted. */
module Validator {
  import opened Wrappers
  import opened Errors
  import opened Text

  const MinWords: nat := 45
  const MaxWords: nat := 200
  const TokenMinLength: nat := 2
  const TokenMaxLength: nat := 5
  /** How many UTF-16 code units of non-digits `[^\d]{0,10}` lets stand between a
      token and its number (a character outside the Basic Multilingual Plane takes two). */
  const NumberWindow: nat := 10

  // ---------------------------------------------------------------------------
  // \b[A-Z]{2,5}\b

  /** Position `i` of `s` exists and holds a `\w` character. */
  predicate WordCharAt(s: string, i: int) {
    0 <= i < |s| && IsWordChar(s[i])
  }

  /** `\b` holds at position `i`: exactly one of `s[i - 1]` and `s[i]` is a `\w`
      character, a position outside `s` counting as a non-word character. */
  predicate IsBoundary(s: string, i: int) {
    WordCharAt(s, i - 1) != WordCharAt(s, i)
  }

  /** The reference meaning of a token: `s[q..q + len]` is a whole `\w`-word (no word
      character on either side) made of 2 to 5 capital letters. */
  predicate TokenSpan(s: string, q: int, len: int) {
    && 0 <= q && q + len <= |s|
    && TokenMinLength <= len <= TokenMaxLength
    && (forall j :: q <= j < q + len ==> IsUpper(s[j]))
    && !WordCharAt(s, q - 1)
    && !WordCharAt(s, q + len)
  }

  /** `t` is a token of `s` found at position `q`. */
  predicate IsTokenAt(s: string, q: int, t: string) {
    TokenSpan(s, q, |t|) && s[q..q + |t|] == t
  }

  /** The greedy part of `[A-Z]{2,5}` at `q`: how many capitals, at most `cap`, follow. */
  function UpperRun(s: string, q: nat, cap: nat): (n: nat)
    requires q <= |s|
    ensures n <= cap && q + n <= |s|
    ensures forall j :: q <= j < q + n ==> IsUpper(s[j])
    ensures n < cap && q + n < |s| ==> !IsUpper(s[q + n])
    decreases cap
  {
    if cap == 0 || q == |s| || !IsUpper(s[q]) then 0
    else 1 + UpperRun(s, q + 1, cap - 1)
  }

  /** The backtracking part: give back one capital at a time until the closing `\b`
      holds, or fewer than two capitals remain. */
  function BackOff(s: string, q: nat, k: nat): (r: Option<nat>)
    requires q + k <= |s|
    ensures r.Some? ==> TokenMinLength <= r.value <= k && IsBoundary(s, q + r.value)
    ensures r.Some? ==> forall e :: q + r.value < e <= q + k ==> !IsBoundary(s, e)
    ensures r.None? ==> forall e :: q + TokenMinLength <= e <= q + k ==> !IsBoundary(s, e)
    decreases k
  {
    if k < TokenMinLength then None
    else if IsBoundary(s, q + k) then Some(k)
    else BackOff(s, q, k - 1)
  }

  /** An attempt to match `\b[A-Z]{2,5}\b` starting exactly at `q`: the length of the
      match, if any. A match is exactly a token in the reference sense. */
  function MatchTokenAt(s: string, q: nat): (r: Option<nat>)
    requires q <= |s|
    ensures r.Some? ==> TokenSpan(s, q, r.value)
    ensures r.None? ==> forall len :: !TokenSpan(s, q, len)
  {
    if !IsBoundary(s, q) then
      assert forall len :: TokenSpan(s, q, len) ==> WordCharAt(s, q);
      None
    else
      var n := UpperRun(s, q, TokenMaxLength);
      var r := BackOff(s, q, n);
      if r.None? then
        assert forall len :: TokenSpan(s, q, len) ==> len == n by {
          forall len | TokenSpan(s, q, len) ensures len == n {
          }
        }
        None
      else
        assert WordCharAt(s, q + r.value - 1);
        r
  }

  /** A token span at `q` has only one possible length. */
  lemma TokenSpanUnique(s: string, q: int, a: int, b: int)
    requires TokenSpan(s, q, a) && TokenSpan(s, q, b)
    ensures a == b
  {
  }

  /** No token starts strictly inside another one. */
  lemma NoTokenInside(s: string, q: int, len: int, p: int, len': int)
    requires TokenSpan(s, q, len) && q < p < q + len
    ensures !TokenSpan(s, p, len')
  {
    assert WordCharAt(s, p - 1);
  }

  /** `summary.matchAll(/\b[A-Z]{2,5}\b/g)` from position `q`: after each match the
      search resumes where the match ended, otherwise one position further on. The
      result holds every token that starts at or after `q`, in order (see
      `TokensFromAt` and `TokensFromSkip`). */
  function TokensFrom(s: string, q: nat): (ts: seq<string>)
    requires q <= |s|
    ensures forall t :: t in ts <==> exists p :: q <= p && IsTokenAt(s, p, t)
    decreases |s| - q
  {
    if q == |s| then
      assert forall p, t :: q <= p && IsTokenAt(s, p, t) ==> TokenSpan(s, p, |t|);
      []
    else
      match MatchTokenAt(s, q)
      case Some(len) =>
        var rest := TokensFrom(s, q + len);
        var ts := [s[q..q + len]] + rest;
        assert IsTokenAt(s, q, s[q..q + len]);
        forall t | exists p :: q <= p && IsTokenAt(s, p, t)
          ensures t in ts
        {
          var p :| q <= p && IsTokenAt(s, p, t);
          if p == q {
            TokenSpanUnique(s, q, len, |t|);
          } else if p < q + len {
            NoTokenInside(s, q, len, p, |t|);
          }
        }
        ts
      case None =>
        TokensFrom(s, q + 1)
  }

  /** The scan keeps the order of the text: a token found at `q` comes first, and
      the search goes on right after it. */
  lemma TokensFromAt(s: string, q: nat, t: string)
    requires q <= |s| && IsTokenAt(s, q, t)
    ensures TokensFrom(s, q) == [t] + TokensFrom(s, q + |t|)
  {
    var r := MatchTokenAt(s, q);
    assert r.Some? && r.value == |t| by {
      if r.Some? { TokenSpanUnique(s, q, r.value, |t|); }
    }
  }

  /** A position where no token starts adds nothing to the scan. */
  lemma TokensFromSkip(s: string, q: nat)
    requires q < |s| && forall t :: !IsTokenAt(s, q, t)
    ensures TokensFrom(s, q) == TokensFrom(s, q + 1)
  {
    var r := MatchTokenAt(s, q);
    if r.Some? {
      assert IsTokenAt(s, q, s[q..q + r.value]);
    }
  }

  /** All matches of `\b[A-Z]{2,5}\b` in `s`, in order. */
  function Tokens(s: string): (ts: seq<string>)
    ensures forall t :: t in ts <==> exists p :: IsTokenAt(s, p, t)
  {
    TokensFrom(s, 0)
  }

  // ---------------------------------------------------------------------------
  // TOKEN[^\d]{0,10}\d+(\.\d+)?

  /** Position `j` of `s` exists and holds a digit. */
  predicate DigitAt(s: string, j: int) {
    0 <= j < |s| && IsDigit(s[j])
  }

  /** The reference meaning of the number test: `t` occurs at `p` and a digit
      follows it with at most `NumberWindow` UTF-16 code units in between. */
  predicate NumberFollowsAt(s: string, t: string, p: int) {
    && OccursAt(s, t, p)
    && exists j :: p + |t| <= j < |s| && DigitAt(s, j) && UnitsBetween(s, p + |t|, j) <= NumberWindow
  }

  /** `[^\d]{0,budget}\d` matches at `i`: non-digits are consumed, one code unit of
      the budget for each half of a surrogate pair, until a digit is reached. The
      optional fraction after the first digit never changes whether the pattern
      matches. */
  function DigitSoon(s: string, i: nat, budget: nat): (b: bool)
    requires i <= |s|
    ensures b <==> exists j :: i <= j && DigitAt(s, j) && UnitsBetween(s, i, j) <= budget
    decreases |s| - i
  {
    if i == |s| then false
    else if IsDigit(s[i]) then
      assert DigitAt(s, i) && UnitsBetween(s, i, i) == 0;
      true
    else if Utf16Units(s[i]) > budget then
      assert forall j :: i <= j && DigitAt(s, j) ==> UnitsBetween(s, i, j) > budget by {
        forall j | i <= j && DigitAt(s, j) ensures UnitsBetween(s, i, j) > budget {
          assert j > i;
        }
      }
      false
    else
      var b := DigitSoon(s, i + 1, budget - Utf16Units(s[i]));
      assert b <==> exists j :: i <= j && DigitAt(s, j) && UnitsBetween(s, i, j) <= budget by {
        forall j | i <= j && DigitAt(s, j)
          ensures j > i && UnitsBetween(s, i, j) == Utf16Units(s[i]) + UnitsBetween(s, i + 1, j)
        {
        }
      }
      b
  }

  /** `new RegExp(t + "[^\\d]{0,10}\\d+(\\.\\d+)?", "g").test(s)` on a fresh regular
      expression, whose search starts at `from` (0 for a fresh one). A token is made of
      capital letters only, so it stands for itself inside the pattern. */
  function NumberAfterFrom(s: string, t: string, from: nat): (b: bool)
    requires from <= |s|
    ensures b <==> exists p :: from <= p && NumberFollowsAt(s, t, p)
    decreases |s| - from
  {
    if from + |t| > |s| then false
    else if s[from..from + |t|] == t && DigitSoon(s, from + |t|, NumberWindow) then
      assert NumberFollowsAt(s, t, from);
      true
    else if from == |s| then false
    else NumberAfterFrom(s, t, from + 1)
  }

  /** Some occurrence of `t` in `s` has a digit close behind it. */
  function NumberAfter(s: string, t: string): (b: bool)
    ensures b <==> exists p :: NumberFollowsAt(s, t, p)
  {
    NumberAfterFrom(s, t, 0)
  }

  /** A token survives both filters: it is not a key stat and a number follows it. */
  predicate Reported(s: string, t: string, keyStats: set<string>) {
    t !in keyStats && NumberAfter(s, t)
  }

  /** `tokens.filter(t => !keyStats.includes(t)).filter(t => <number test>)`. */
  function Flagged(s: string, tokens: seq<string>, keyStats: set<string>): (r: seq<string>)
    ensures forall t :: t in r <==> t in tokens && t !in keyStats && NumberAfter(s, t)
    ensures |r| <= |tokens|
    ensures (forall i :: 0 <= i < |tokens| ==> tokens[i] in keyStats || !NumberAfter(s, tokens[i])) ==> r == []
  {
    if |tokens| == 0 then []
    else
      var rest := Flagged(s, tokens[1..], keyStats);
      if Reported(s, tokens[0], keyStats) then [tokens[0]] + rest else rest
  }

  /** The two filters keep the order of the tokens and their repetitions: they work
      piecewise over a concatenation. */
  lemma {:induction false} FlaggedConcat(s: string, a: seq<string>, b: seq<string>, keyStats: set<string>)
    ensures Flagged(s, a + b, keyStats) == Flagged(s, a, keyStats) + Flagged(s, b, keyStats)
    decreases |a|
  {
    if |a| == 0 {
      assert a + b == b;
    } else {
      assert (a + b)[0] == a[0] && (a + b)[1..] == a[1..] + b;
      FlaggedConcat(s, a[1..], b, keyStats);
    }
  }

  /** The tokens the hallucination check reports, in order of appearance (see `FlaggedConcat`). */
  function Hallucinations(s: string, keyStats: set<string>): seq<string> {
    Flagged(s, Tokens(s), keyStats)
  }

  // ---------------------------------------------------------------------------
  // the validator

  /** `keyStats.some(k => summary.includes(k))`. */
  function MentionsKeyStat(s: string, keyStats: set<string>): bool {
    exists k :: k in keyStats && Includes(s, k)
  }

  /** The reference meaning of the length check: a summary with no words counts as
      one word, any other as its number of whitespace-separated words. */
  predicate LengthOk(s: string) {
    var n := if WordsIn(s) == 0 then 1 else WordsIn(s);
    MinWords <= n <= MaxWords
  }

  /** The reference meaning of the mention check. */
  ghost predicate Mentions(s: string, keyStats: set<string>) {
    exists k, p :: k in keyStats && OccursAt(s, k, p)
  }

  /** The reference meaning of a hallucinated stat: a token of `s` that is not a key
      stat and that some occurrence of which has a digit close behind it. */
  ghost predicate IsHallucinated(s: string, keyStats: set<string>, t: string) {
    (exists q :: IsTokenAt(s, q, t)) && t !in keyStats && exists p :: NumberFollowsAt(s, t, p)
  }

  /** The length check as written, on `trim().split(/\s+/).length`, is the reference
      length condition. */
  lemma LengthCheckMeaning(s: string)
    ensures (MinWords <= WordCount(s) <= MaxWords) <==> LengthOk(s)
  {
    WordCountIsWords(s);
  }

  /** The mention check as written is the reference mention condition. */
  lemma MentionCheckMeaning(s: string, keyStats: set<string>)
    ensures MentionsKeyStat(s, keyStats) <==> Mentions(s, keyStats)
  {
    if Mentions(s, keyStats) {
      var k, p :| k in keyStats && OccursAt(s, k, p);
      assert Includes(s, k);
    }
  }

  /** The hallucination check as written reports exactly the hallucinated tokens. */
  lemma HallucinationCheckMeaning(s: string, keyStats: set<string>)
    ensures forall t :: t in Hallucinations(s, keyStats) <==> IsHallucinated(s, keyStats, t)
  {
  }

  /** `validateSummary`: `Pass` when all three checks pass, otherwise the error of the
      first check that fails; a hallucination error lists exactly the hallucinated
      tokens. */
  function ValidateSummary(summary: string, keyStats: set<string>): (r: Outcome<ErrKind>)
    ensures r == Fail(InvalidLength) <==> !LengthOk(summary)
    ensures r == Fail(MissingStatReference) <==> LengthOk(summary) && !Mentions(summary, keyStats)
    ensures r.Fail? && r.error.HallucinatedStat? <==>
              && LengthOk(summary) && Mentions(summary, keyStats)
              && exists t :: IsHallucinated(summary, keyStats, t)
    ensures r.Fail? && r.error.HallucinatedStat? ==>
              forall t :: t in r.error.tokens <==> IsHallucinated(summary, keyStats, t)
    ensures r == Pass <==>
              && LengthOk(summary) && Mentions(summary, keyStats)
              && forall t :: !IsHallucinated(summary, keyStats, t)
    ensures r.Fail? ==> r.error.InvalidLength? || r.error.MissingStatReference? || r.error.HallucinatedStat?
  {
    LengthCheckMeaning(summary);
    MentionCheckMeaning(summary, keyStats);
    HallucinationCheckMeaning(summary, keyStats);
    var n := WordCount(summary);
    if n < MinWords || n > MaxWords then Fail(InvalidLength)
    else if !MentionsKeyStat(summary, keyStats) then Fail(MissingStatReference)
    else
      var h := Hallucinations(summary, keyStats);
      if |h| > 0 then
        assert IsHallucinated(summary, keyStats, h[0]);
        Fail(HallucinatedStat(h))
      else
        Pass
  }
}

=== FILE: validator_facts.dfy ===
/** Properties of `validateSummary` beyond its contract: the boundaries of the length
    window, the quirk that a summary with no words counts as one word, the tolerance
    for capitals with no number nearby, the code-unit count of the number window, and
    two worked examples. */
module ValidatorFacts {
  import opened Wrappers
  import opened Errors
  import opened Text
  import opened Validator

  /** The key stats of the baseball setups. */
  const BaseballKeys: set<string> := {"OPS", "ERA", "AVG"}

  /** `k` copies of " x". */
  function Pad(k: nat): (s: string)
    ensures |s| == 2 * k
    ensures forall i :: 0 <= i < |s| ==> s[i] == ' ' || s[i] == 'x'
    ensures k > 0 ==> s[0] == ' '
  {
    if k == 0 then "" else " x" + Pad(k - 1)
  }

  /** A summary of exactly `n` words that mentions OPS and contains no digit. */
  function Filler(n: nat): string
    requires n >= 1
  {
    "OPS" + Pad(n - 1)
  }

  // ---------------------------------------------------------------------------
  // counting words

  /** Words do not run across a join that starts with whitespace. */
  lemma {:induction false} WordsInConcat(a: string, b: string)
    requires |a| > 0 && (|b| == 0 || IsSpace(b[0]))
    ensures WordsIn(a + b) == WordsIn(a) + WordsIn(b)
    decreases |a|
  {
    assert (a + b)[1..] == a[1..] + b;
    if |a| > 1 {
      WordsInConcat(a[1..], b);
    }
  }

  lemma {:induction false} WordsInPad(k: nat)
    ensures WordsIn(Pad(k)) == k
  {
    if k > 0 {
      var p := Pad(k - 1);
      WordsInPad(k - 1);
      assert Pad(k) == " x" + p;
      assert (" x" + p)[1..] == "x" + p;
      assert ("x" + p)[1..] == p;
    }
  }

  /** `Filler(n)` has exactly `n` words. */
  lemma FillerWords(n: nat)
    requires n >= 1
    ensures WordsIn(Filler(n)) == n
  {
    WordsInPad(n - 1);
    assert WordsIn("OPS") == 1;
    WordsInConcat("OPS", Pad(n - 1));
  }

  /** A string has at most as many words as characters. */
  lemma {:induction false} WordsInAtMostLength(s: string)
    ensures WordsIn(s) <= |s|
    decreases |s|
  {
    if |s| > 0 {
      WordsInAtMostLength(s[1..]);
    }
  }

  /** An empty or all-whitespace summary counts as one word, since
      `"".split(/\s+/)` is `[""]`; so it fails the length check. */
  lemma BlankSummaryIsOneWord(s: string, keyStats: set<string>)
    requires forall i :: 0 <= i < |s| ==> IsSpace(s[i])
    ensures WordCount(s) == 1
    ensures ValidateSummary(s, keyStats) == Fail(InvalidLength)
  {
    assert Trim(s) == "";
    LengthCheckMeaning(s);
  }

  /** Any summary shorter than 45 characters has fewer than 45 words, so it fails
      the length check whatever else it contains. */
  lemma ShortSummaryFails(s: string, keyStats: set<string>)
    requires |s| < MinWords
    ensures ValidateSummary(s, keyStats) == Fail(InvalidLength)
  {
    WordsInAtMostLength(s);
  }

  // ---------------------------------------------------------------------------
  // the hallucination check

  /** Capitals can only be a hallucinated stat when a digit is nearby: a summary
      without digits never fails the hallucination check. */
  lemma NoDigitsNoHallucination(s: string, keyStats: set<string>)
    requires forall i :: 0 <= i < |s| ==> !IsDigit(s[i])
    ensures forall t :: !IsHallucinated(s, keyStats, t)
    ensures Hallucinations(s, keyStats) == []
  {
    HallucinationCheckMeaning(s, keyStats);
  }

  /** The length window is inclusive at both ends: a summary that mentions a key
      stat and has no number passes exactly when it has 45 to 200 words, so 44 and
      201 words fail while 45 and 200 pass. */
  lemma LengthBoundaries(n: nat)
    requires n >= 1
    ensures ValidateSummary(Filler(n), BaseballKeys) ==
            if MinWords <= n <= MaxWords then Pass else Fail(InvalidLength)
  {
    FillerWords(n);
    if MinWords <= n <= MaxWords {
      FillerPasses(n, BaseballKeys);
    }
  }

  /** A filler summary mentions OPS and has no digit, so against any key stats that
      include OPS only its length can fail it. */
  lemma FillerPasses(n: nat, keyStats: set<string>)
    requires MinWords <= n <= MaxWords
    requires "OPS" in keyStats
    ensures ValidateSummary(Filler(n), keyStats) == Pass
  {
    var s := Filler(n);
    FillerWords(n);
    assert OccursAt(s, "OPS", 0);
    assert forall i :: 0 <= i < |s| ==> !IsDigit(s[i]) by {
      forall i | 0 <= i < |s| ensures !IsDigit(s[i]) {
        if i >= 3 {
          assert s[i] == Pad(n - 1)[i - 3];
        }
      }
    }
    NoDigitsNoHallucination(s, keyStats);
  }

  /** A filler summary has no whitespace at either end. */
  lemma FillerTrimmed(n: nat)
    requires n >= 1
    ensures Trimmed(Filler(n))
  {
    var s := Filler(n);
    if n > 1 {
      assert s[|s| - 1] == Pad(n - 1)[|s| - 4];
      PadLast(n - 1);
    }
  }

  lemma {:induction false} PadLast(k: nat)
    requires k >= 1
    ensures Pad(k)[2 * k - 1] == 'x'
  {
    if k > 1 {
      PadLast(k - 1);
      assert Pad(k)[2 * k - 1] == Pad(k - 1)[2 * k - 3];
    }
  }

  /** "WAR was 4.5 this season": WAR is an unrecognised token with a number right
      after it, so the hallucination check would report it; but the summary has five
      words, so the length check, which runs first, is what rejects it. */
  lemma WarExample(s: string)
    requires s == "WAR was 4.5 this season"
    ensures "WAR" in Hallucinations(s, BaseballKeys)
    ensures ValidateSummary(s, BaseballKeys) == Fail(InvalidLength)
  {
    assert s[..3] == "WAR";
    assert IsTokenAt(s, 0, "WAR");
    assert DigitAt(s, 8);
    assert NumberFollowsAt(s, "WAR", 0);
    assert IsHallucinated(s, BaseballKeys, "WAR");
    HallucinationCheckMeaning(s, BaseballKeys);
    ShortSummaryFails(s, BaseballKeys);
  }

  /** "WAR ok. AWARD 7": the word WAR has no digit within reach, but the number test
      runs over the whole summary, so the letters WAR inside AWARD, which have a 7
      close behind them, get the word WAR reported. */
  lemma InnerOccurrenceCounts(s: string)
    requires s == "WAR ok. AWARD 7"
    ensures IsTokenAt(s, 0, "WAR")
    ensures forall j :: 3 <= j < |s| && DigitAt(s, j) ==> UnitsBetween(s, 3, j) > NumberWindow
    ensures "WAR" in Hallucinations(s, {})
  {
    assert s[..3] == "WAR" by {
      assert s[..3][0] == 'W' && s[..3][1] == 'A' && s[..3][2] == 'R';
    }
    InnerWordDigitFar(s);
    InnerLettersFlagged(s);
  }

  lemma InnerWordDigitFar(s: string)
    requires s == "WAR ok. AWARD 7"
    ensures forall j :: 3 <= j < |s| && DigitAt(s, j) ==> UnitsBetween(s, 3, j) > NumberWindow
  {
    assert forall j :: 0 <= j < 14 ==> !DigitAt(s, j);
    forall j | 3 <= j < |s| && DigitAt(s, j) ensures UnitsBetween(s, 3, j) > NumberWindow {
      UnitsBetweenBounds(s, 3, j);
    }
  }

  lemma InnerLettersFlagged(s: string)
    requires s == "WAR ok. AWARD 7"
    requires IsTokenAt(s, 0, "WAR")
    ensures "WAR" in Hallucinations(s, {})
  {
    assert s[9..12] == "WAR" by {
      assert s[9..12][0] == 'W' && s[9..12][1] == 'A' && s[9..12][2] == 'R';
    }
    assert DigitAt(s, 14);
    assert UnitsBetween(s, 12, 14) == 2 by {
      assert UnitsBetween(s, 13, 14) == 1;
    }
    assert NumberFollowsAt(s, "WAR", 9);
    assert IsHallucinated(s, {}, "WAR");
    HallucinationCheckMeaning(s, {});
  }

  /** The only capitals-only words of the MVP example are MVP and OPS. */
  lemma MvpTokens(s: string)
    requires s == "MVP candidate with strong OPS of .844"
    ensures forall q, t :: IsTokenAt(s, q, t) ==> t == "MVP" || t == "OPS"
  {
    forall q, t | IsTokenAt(s, q, t) ensures t == "MVP" || t == "OPS" {
      MvpTokenAt(s, q, t);
    }
  }

  lemma MvpTokenAt(s: string, q: int, t: string)
    requires s == "MVP candidate with strong OPS of .844"
    requires IsTokenAt(s, q, t)
    ensures t == "MVP" || t == "OPS"
  {
    assert q in {0, 1, 2, 26, 27, 28} by {
      assert forall p :: 0 <= p < |s| && IsUpper(s[p]) ==> p in {0, 1, 2, 26, 27, 28};
      assert IsUpper(s[q]);
    }
    assert q == 0 || q == 26;
    if q == 0 {
      MvpTokenAtStart(s, t);
    } else {
      MvpTokenAtOps(s, t);
    }
  }

  lemma MvpTokenAtStart(s: string, t: string)
    requires s == "MVP candidate with strong OPS of .844"
    requires IsTokenAt(s, 0, t)
    ensures t == "MVP"
  {
    assert WordCharAt(s, 2) && !IsUpper(s[3]);
    assert |t| == 3;
    assert t[0] == s[0] && t[1] == s[1] && t[2] == s[2];
    assert s[0] == 'M' && s[1] == 'V' && s[2] == 'P';
  }

  lemma MvpTokenAtOps(s: string, t: string)
    requires s == "MVP candidate with strong OPS of .844"
    requires IsTokenAt(s, 26, t)
    ensures t == "OPS"
  {
    assert WordCharAt(s, 28) && !IsUpper(s[29]);
    assert |t| == 3;
    assert t[0] == s[26] && t[1] == s[27] && t[2] == s[28];
  }

  /** In the MVP example no digit follows MVP within reach. */
  lemma MvpNoNumber(s: string)
    requires s == "MVP candidate with strong OPS of .844"
    ensures !NumberAfter(s, "MVP")
  {
    MvpOnlyAtStart(s);
    MvpDigitsFar(s);
  }

  lemma MvpOnlyAtStart(s: string)
    requires s == "MVP candidate with strong OPS of .844"
    ensures forall p :: OccursAt(s, "MVP", p) ==> p == 0
  {
    assert forall q :: 0 <= q < |s| && s[q] == 'M' ==> q == 0;
    forall p | OccursAt(s, "MVP", p) ensures p == 0 {
      assert s[p] == s[p..p + 3][0];
    }
  }

  lemma MvpDigitsFar(s: string)
    requires s == "MVP candidate with strong OPS of .844"
    ensures forall j :: 3 <= j < |s| && DigitAt(s, j) ==> UnitsBetween(s, 3, j) > NumberWindow
  {
    assert forall j :: 0 <= j <= 13 ==> !DigitAt(s, j);
    forall j | 3 <= j < |s| && DigitAt(s, j) ensures UnitsBetween(s, 3, j) > NumberWindow {
      UnitsBetweenBounds(s, 3, j);
    }
  }

  /** The number window counts UTF-16 code units, as the source's regular expression
      does: five emoji take ten units, so the digit seven characters after ABC is
      out of reach, although it is within ten characters. */
  lemma AstralCharsCountTwice(s: string)
    requires s == "ABC\U{1F600}\U{1F600}\U{1F600}\U{1F600}\U{1F600} 1"
    ensures IsTokenAt(s, 0, "ABC")
    ensures DigitAt(s, 9) && 9 - 3 <= NumberWindow
    ensures !NumberAfter(s, "ABC")
  {
    assert s[..3] == "ABC" by {
      assert s[..3][0] == 'A' && s[..3][1] == 'B' && s[..3][2] == 'C';
    }
    assert forall q :: 0 <= q < |s| && s[q] == 'A' ==> q == 0;
    forall p | OccursAt(s, "ABC", p) ensures p == 0 {
      assert s[p] == s[p..p + 3][0];
    }
    assert forall j :: 0 <= j < 9 ==> !DigitAt(s, j);
    assert UnitsBetween(s, 8, 9) == 1;
    assert UnitsBetween(s, 3, 9) == 11;
  }

  /** "MVP candidate with strong OPS of .844": MVP has no number within reach and OPS
      is a key stat, so nothing is reported. */
  lemma MvpExample(s: string)
    requires s == "MVP candidate with strong OPS of .844"
    ensures Hallucinations(s, BaseballKeys) == []
  {
    MvpTokens(s);
    MvpNoNumber(s);
    var ts := Tokens(s);
    forall i | 0 <= i < |ts| ensures ts[i] in BaseballKeys || !NumberAfter(s, ts[i]) {
      assert ts[i] in ts;
    }
  }
}

=== FILE: wrappers.dfy ===
/** Failure-carrying return types used in place of the exceptions the system throws. */
module Wrappers {

  /** A value that may be absent, as `Array.prototype.find` returns `undefined` on no match. */
  datatype Option<+T> = None | Some(value: T)

  /** The outcome of an operation that either returns a value or throws. */
  datatype Result<+T, +E> = Ok(value: T) | Err(error: E)

  /** The outcome of an operation that returns nothing on success and throws otherwise. */
  datatype Outcome<+E> = Pass | Fail(error: E)
}
